=== FILE: README.md ===
# Ximage compression core — a verified model

Ximage is a desktop image compressor (Tauri front end, Rust back end). Its back
end takes a batch of JPEG, PNG and WebP images with per-format quality
settings, an optional lossless mode and an optional EXIF-preservation flag. It
re-encodes each image and writes the result into an output directory or over
the original file.

This project models the pure decision logic of that back end in Dafny and
proves properties of it:

- `sanitize_filename` (module `Sanitize`);
- format classification: `detect_image_format` and the upload tag check (`Format`, `Paths`);
- the encoding-parameter policy inside `compress_image`: which encoder runs for
  each format and mode, the PNG quantiser settings, the JPEG candidate
  qualities, and the best-of loop (`Policy`, `Compress`);
- the EXIF guard and `preserve_exif_data` (`Compress`);
- destination resolution (`Destination`);
- the per-item checks and batch loops of `compress_uploaded_files` (`Upload`)
  and `compress_images` (`Batch`).

The codecs, base64 decoding and the file system are oracles:

- A `CompressIo` value says how each effectful step of one `compress_image`
  call turns out. This covers file metadata, image decoding, the temporary
  directory and file, each codec call (keyed by the call and its parameters),
  the EXIF steps, and the final copy.
- An `UploadIo` value does the same for the temporary copy of an upload.
- Base64 decoding is a function parameter `decode`.
- The float score of the JPEG search is a parameter `score` that returns a
  `real`.
- A successful `compress_image` returns its two sizes. It also returns the
  path it wrote and the bytes it wrote there, which are the effect a
  successful call has on the file system.

Modelling choices:

- Paths are sequences of components with Unix rules. The root is the
  component "/", and "." and ".." are the current and parent directory.
  `Path::join` with a name that holds no '/' adds one component; "" and "."
  add nothing. The commands' path arguments are meant to be in the form
  `Path::components` yields (`Paths.Normalised`: no empty components, the
  root and "." only first). `Join` keeps that form, and on it `FileName` is
  `Path::file_name`.
- `fs::write` to a path that is an existing directory fails. For an upload,
  that is the case when the sanitised name is "", "." or "..": its
  temporary path is then the temporary directory or its parent. The model
  gives such an item save_failed whatever the other I/O would do.
- Rust's `char::is_alphanumeric` is a parameter of type `AlnumClass`. It is
  any character predicate that equals ASCII letters-and-digits on ASCII, and
  is left open beyond ASCII. So the sanitiser lemmas hold whatever the
  Unicode tables say, and non-ASCII names are not forced to '_'.
- `to_lowercase` on the extension is modelled as ASCII lower-casing. No
  character outside ASCII lower-cases to a letter of "png", "jpg", "jpeg" or
  "webp", so the classification is the same. Only the text of an
  "Unsupported format" message could differ.
- Integers of the source are `u8` (qualities), `u32` (source index) and `u64`
  (sizes). They are modelled as subset types `U8`, `U32` and as `nat`. The
  `u8` saturating add and subtract are written out.

Behaviour of the code that the model keeps:

- The upload format tag is checked, but it does not decide the format.
  `compress_image` detects the format again from the extension of the file it
  reads. That file is the source path, or the temporary copy named after the
  sanitised name. `Upload.TagDoesNotDecideFormat` shows an item with an accepted
  tag such as "png" failing because its name has no extension.
- A missing destination is detected after the base64 decode and the
  temporary save. It is still detected before any encoding.
- Qualities are any `u8`. JPEG is clamped to [60, 95] and PNG to [10, 100];
  the WebP quality goes to the encoder unclamped.
- Lossless JPEG is a single JPEG encoding at quality 100.
- The saving percentage is only logged; the result rows hold the two sizes.
- Both loops handle one item at a time, in input order.

## Model

| member | source | states |
|---|---|---|
| `Sanitize.SanitizeFilename` | src-tauri/src/main.rs:32-51 | every output character is alphanumeric, '.', '_' or '-'; so no '/', '\' or NUL; the output is never longer than the name |
| `Sanitize.SanitizeKeepsCleanName` | src-tauri/src/main.rs:34-48 | a name made only of allowed characters, holding no "..", comes back unchanged |
| `Sanitize.RemoveParentRefsKeepsClean` | src-tauri/src/main.rs:35 | the ".." replacement leaves a string without ".." unchanged |
| `Sanitize.RemoveParentRefsLeavesNone` | src-tauri/src/main.rs:35 | the left-to-right, non-overlapping ".." removal on its own leaves no ".." |
| `Sanitize.SanitizeNoParentRefWithoutNul` | src-tauri/src/main.rs:33-38 | when the name holds no NUL, the output holds no ".." |
| `Sanitize.SanitizeIdempotentWithoutNul` | src-tauri/src/main.rs:32-51 | on names without NUL, sanitising twice equals sanitising once |
| `Sanitize.NulHidesParentRef` | src-tauri/src/main.rs:33-38 | ".\0." is sanitised to "..", which holds a parent reference; sanitising that again gives "" |
| `Sanitize.SanitizeFilenameStrict` | src-tauri/src/main.rs:33 | with NUL dropped before the ".." pass, the output never holds "..", and keeps the other guarantees |
| `Sanitize.StrictAgreesWithoutNul` | src-tauri/src/main.rs:34-38 | the corrected and the as-written sanitiser agree on every name without NUL |
| `Paths.FileName` | src-tauri/src/main.rs:54-55 | `Path::file_name`: the last component exactly when it is a normal name (not empty, the root, "." or "..") |
| `Paths.FileExtension` | src-tauri/src/main.rs:54-56 | the extension is the text after the last '.'; there is none when the name has no dot, when its only dot is the leading one, or when it is ".." |
| `Paths.Extension` | src-tauri/src/main.rs:53-56 | a path has an extension only if it has a file name, and when it has one its extension is exactly that name's extension |
| `Paths.Join` | src-tauri/src/main.rs:466-469 | joining a separator-free name adds exactly that name as one component, except that "" and "." add nothing |
| `Paths.Parent` | src-tauri/src/main.rs:303 | a path has a parent unless it is empty or ends at the root; the parent plus the last component is the path |
| `Paths.FileNameOfNormalised` | src-tauri/src/main.rs:54-55 | on a path in component form there is no file name exactly for the empty path, the root, a lone "." and a path ending in ".." |
| `Paths.JoinKeepsNormalised` | src-tauri/src/main.rs:446 | joining a separator-free name keeps a path in component form |
| `Format.DetectImageFormat` | src-tauri/src/main.rs:53-56 | the result is the "No extension" error exactly when the path has no extension; success needs a file name |
| `Format.DetectImageFormatCases` | src-tauri/src/main.rs:53-66 | "png" gives Png, "jpg" and "jpeg" give Jpeg, "webp" gives WebP, in any ASCII case; a missing extension or any other extension is an error |
| `Format.ClassifyIgnoresCase` | src-tauri/src/main.rs:54-64 | two extensions equal up to ASCII case are classified identically, error text included |
| `Format.EqIgnoreCaseIsLowerEq` | src-tauri/src/main.rs:417 | ASCII-case-insensitive equality is equality of the lower-cased strings |
| `Format.TagAcceptedIffClassified` | src-tauri/src/main.rs:414-418 | a tag passes the upload check (png/jpg/jpeg/webp up to ASCII case) exactly when it would be a supported extension |
| `Format.HiddenFileHasNoFormat` | src-tauri/src/main.rs:54-56 | a hidden file such as ".png" has no extension and is rejected with "No extension" |
| `Policy.ClampU8` | src-tauri/src/main.rs:237 | `clamp(lo, hi)` lies in [lo, hi] and is the value itself inside the range |
| `Policy.QuantizerArgumentsValid` | src-tauri/src/main.rs:203-210 | target = quality_png.min(100).max(10); bands (25, 8, 0.6) for target at least 80, (30, 9, 0.8) for 60..79, (40, 10, 1.0) below 60; 0 <= minimum <= target; speed in 1..10 |
| `Policy.QuantizerMonotone` | src-tauri/src/main.rs:168-171 | a higher PNG quality never raises speed, offset or dithering, and never lowers the target or the minimum quality |
| `Policy.Retain` | src-tauri/src/main.rs:245 | `retain` keeps exactly the elements inside the range, each as often as it occurred |
| `Policy.RetainAppend` | src-tauri/src/main.rs:245 | `retain` keeps the order: retaining from a concatenation concatenates what each part retains |
| `Policy.Sort` | src-tauri/src/main.rs:246 | `sort_unstable` yields an ascending permutation of its input |
| `Policy.SortKeepsMembers` | src-tauri/src/main.rs:246 | sorting keeps exactly the values it was given |
| `Policy.Dedup` | src-tauri/src/main.rs:247 | `dedup` keeps the same values and the first element, and turns an ascending list into a strictly ascending one |
| `Policy.RawCandidatesAreGrid` | src-tauri/src/main.rs:238-244 | for a base in [60, 95] the five raw candidates are base+10, base+5, base, base-5, base-10 without saturation, i.e. the grid points around the base |
| `Policy.CandidateMembers` | src-tauri/src/main.rs:237-247 | the candidate list is strictly ascending and holds exactly the grid points base+5k, k in -2..2, that lie in [60, 95] |
| `Policy.CandidateCount` | src-tauri/src/main.rs:238-247 | such a list has between 3 and 5 elements |
| `Policy.JpegCandidatesShape` | src-tauri/src/main.rs:237-247 | base_q = clamp(quality_jpg, 60, 95); no saturation; the list is strictly ascending, within [60, 95], contains base_q, holds exactly the in-range base_q+5k, and has 3 to 5 elements |
| `Policy.PlanProperties` | src-tauri/src/main.rs:151-296 | the plan keeps the format; PNG lossless is oxipng preset 1; PNG lossy is quantise then preset 2 stripping all chunks; JPEG lossless is quality 100; JPEG lossy searches only [60, 95] around the base; WebP lossy uses quality_webp as given |
| `Destination.DestinationCases` | src-tauri/src/main.rs:466-479 | no target exactly when there is neither output directory nor source path; with a directory the final path is the directory joined with the sanitised name; otherwise it is the source path, overwritten in place; the file read is the source path or else the temporary copy |
| `Compress.Attempt` | src-tauri/src/main.rs:254 | a candidate encoding fails exactly when the encoder fails at that quality; otherwise it is the encoder's output at that quality, with the score of that quality and output |
| `Compress.SelectBest` | src-tauri/src/main.rs:249-263 | any encoder failure aborts; otherwise the result scores at least the start and every candidate, and it is the start or the first candidate with the highest score strictly above the start's |
| `Compress.SelectBestQuality` | src-tauri/src/main.rs:253-262 | the kept encoding is the start or the encoder's output at one of the candidate qualities |
| `Compress.EncodeWith` | src-tauri/src/main.rs:151-296 | every plan but lossless WebP fails when the temporary file cannot be used; every success is some codec's output; fixed JPEG succeeds exactly when its encoding does and is the quality-100 output, taking the unchecked buffered write to reach the file in full; the JPEG search yields exactly `EncodeJpegSearch`'s result; WebP save and WebP encode succeed exactly when their codec call (and, for encode, the temporary write) does, a failed WebP encode being "WebP encode failed" |
| `Compress.EncodePngLossless` | src-tauri/src/main.rs:153-158 | lossless PNG succeeds exactly when the PNG save, the temporary read and oxipng preset 1 succeed, and is oxipng's output on the saved PNG |
| `Compress.EncodePngLossy` | src-tauri/src/main.rs:159-219 | lossy PNG succeeds exactly when quantisation and the temporary write succeed; the result is the optimised image when oxipng and its rewrite succeed, else the quantised one, taking a failed rewrite to leave the file unchanged |
| `Compress.EncodeJpegSearch` | src-tauri/src/main.rs:230-265 | lossy JPEG succeeds exactly when the base encoding, every candidate encoding and the temporary write succeed, and is then the data of `SelectBest`'s pick starting from the base encoding with score 0.0, an encoding at the base or a candidate quality |
| `Compress.PreserveExifData` | src-tauri/src/main.rs:68-95 | a non-JPEG file is left unchanged; the file changes only when the original JPEG has EXIF and its re-insertion succeeds; when the reads, the parse, the re-insertion and the write all succeed the file holds the re-inserted bytes; the call succeeds exactly when the reads succeed and, for JPEG, the parse and, if EXIF is present, the re-insertion and the write; a failed call leaves the compressed bytes, taking a failed write to leave the file unchanged |
| `Compress.ApplyExif` | src-tauri/src/main.rs:298-300 | the EXIF step runs exactly for JPEG with preserve_exif, and then the output is what `preserve_exif_data` left in the file; otherwise the encoding is kept |
| `Compress.CompressImage` | src-tauri/src/main.rs:97-318 | a detection failure is the result; success exactly when detection, metadata, decoding, the temporary directory, the encoding, the parent-directory creation (when the output has a parent), the copy and the stat all succeed; the written bytes are the encoding after the EXIF step; the written file is the output path if given, else the original; the sizes are the original's and the written bytes' |
| `Compress.ExifErrorsDiscarded` | src-tauri/src/main.rs:298-300 | whether compression succeeds never depends on the EXIF steps; unless the format is JPEG with preserve_exif, nothing does |
| `Compress.JpegLosslessAt100` | src-tauri/src/main.rs:223-228 | lossless JPEG writes the encoder's output at quality 100, taking the unchecked buffered write to reach the file in full, after the EXIF step when preserve_exif is set |
| `Compress.JpegLossyQualityInRange` | src-tauri/src/main.rs:237-265 | lossy JPEG writes an encoding made at some quality in [60, 95], whatever quality_jpg is, after the EXIF step when preserve_exif is set |
| `Compress.JpegLossyWritesBestPick` | src-tauri/src/main.rs:249-265 | lossy JPEG writes the encoding the best-of loop picks, starting from the base encoding with score 0.0 and trying the candidates in order, after the EXIF step when preserve_exif is set |
| `Compress.ExifReinserted` | src-tauri/src/main.rs:298-300 | with preserve_exif, a JPEG whose original carries EXIF is written as the compressed encoding with that EXIF re-inserted, when every EXIF step succeeds |
| `Compress.PngOptimizerFailure` | src-tauri/src/main.rs:152-220 | when oxipng fails, lossless PNG fails while lossy PNG keeps the quantised image |
| `Compress.WebPLossyQuality` | src-tauri/src/main.rs:271-292 | lossy WebP writes the encoder's output at quality_webp |
| `Compress.WebPLosslessSaved` | src-tauri/src/main.rs:269-270 | lossless WebP writes the image as saved by `save_with_format` |
| `Compress.PngOptimizedKept` | src-tauri/src/main.rs:215-218 | lossy PNG keeps the preset-2, strip-all oxipng output of the quantised image when oxipng and its rewrite succeed |
| `Batch.CompressOne` | src-tauri/src/main.rs:346-357 | the row echoes the path; it is a success exactly when compression succeeds, with its sizes; a failure carries (0, 0) and the error |
| `Batch.CompressImages` | src-tauri/src/main.rs:341-361 | one row per path, in order, each depending only on its own path and I/O |
| `Batch.CompressImagesInPlace` | src-tauri/src/main.rs:343-359 | rows echo their paths, failures carry (0, 0), and every success overwrote its own path |
| `Batch.StatusText` | src-tauri/src/main.rs:352-356 | the status is "success" exactly for a success, and starts with "error: " otherwise |
| `Batch.ErrorText` | src-tauri/src/main.rs:53-66 | "No extension" is the message exactly of a missing extension; an unsupported extension gives "Unsupported format: " and the lower-cased extension; the temporary-directory and WebP failures begin with the prefixes `compress_image` writes |
| `Batch.UnsupportedTextNamesExtension` | src-tauri/src/main.rs:64 | two unsupported-format messages are equal exactly when the extensions are |
| `Upload.ProcessItem` | src-tauri/src/main.rs:407-505 | the row echoes the original name and the source index; unsupported_format exactly for a rejected tag; a base64 failure is decode_failed; a failed temporary write, or a sanitised name whose temporary path is a directory, is save_failed; a non-success carries (0, 0); a success carries the sizes compress_image reported; compress_image is called exactly for success and compress_failed |
| `Upload.ProcessAll` | src-tauri/src/main.rs:407-506 | exactly one row per item, in input order, each the outcome of its own item |
| `Upload.CompressUploadedFiles` | src-tauri/src/main.rs:401-512 | the command fails as a whole only when its temporary directory cannot be created, with "Failed to create temp dir: " and the reason; otherwise its rows are those of the loop over the items |
| `Upload.BatchRowsFollowItems` | src-tauri/src/main.rs:407-506 | one row per item in order, echoing the unsanitised name and the source index; every non-success has sizes (0, 0) |
| `Upload.UnsupportedTagShortCircuits` | src-tauri/src/main.rs:413-422 | an unsupported tag gives unsupported_format with (0, 0), whatever the decoder and I/O would do |
| `Upload.SizeLimitBoundary` | src-tauri/src/main.rs:429-434 | exactly 50 MiB is accepted; more is file_too_large |
| `Upload.MissingDestinationNotCompressed` | src-tauri/src/main.rs:473-477 | with neither output directory nor source path, compress_image is not called; an item that passed the earlier checks is then missing_source_path |
| `Upload.SuccessIffAllSteps` | src-tauri/src/main.rs:413-500 | success exactly when the tag, decode, size, temporary save and destination checks all pass and compress_image succeeds; the sizes are then compress_image's |
| `Upload.CompressDecides` | src-tauri/src/main.rs:481-505 | once the tag, decode, size, temporary-write and destination checks pass, the status is save_failed if the sanitised name makes the temporary path a directory, and otherwise success or compress_failed, as compress_image decides |
| `Upload.UploadDestination` | src-tauri/src/main.rs:466-481 | once the other checks pass, compress_image is called exactly when the sanitised name does not make the temporary path a directory; it reads the source path or else the temporary copy, and writes the output directory joined with the sanitised name, or else the source path |
| `Upload.TagDoesNotDecideFormat` | src-tauri/src/main.rs:471-481 | an item with an accepted tag, no source path and a non-empty name without '.' or NUL fails in compress_image, since the copy it reads has no extension |
| `Upload.UploadStaysInOutputDir` | src-tauri/src/main.rs:446-481 | whatever the uploaded name, a compressed upload written to an output directory lands in a file directly inside it: the final path is the directory plus one normal component |
| `Upload.NulNameNotSaved` | src-tauri/src/main.rs:446-450 | the name ".\0." sanitises to "..", so its temporary path is the temporary directory's parent; the write fails and the item is save_failed without calling compress_image |

## Findings

| source | as written | input that shows it | evidently intended | confidence | as-written member | corrected member |
|---|---|---|---|---|---|---|
| src-tauri/src/main.rs:33-38 | ".." is removed before NUL, so a NUL between two dots joins them after the ".." pass | the name ".\0." is sanitised to "..", which the comment says cannot happen; in `compress_uploaded_files` its temporary path `temp_dir.join("..")` is a directory, so the write fails and the item ends save_failed before any output path is built | parent references removed, as the comment at line 33 says: drop NUL before the ".." pass | not executed | `Sanitize.NulHidesParentRef` | `Sanitize.SanitizeFilenameStrict` |

`Sanitize.SanitizeFilenameStrict` is proved to leave no ".." in any name.
`Sanitize.StrictAgreesWithoutNul` proves it equals the as-written sanitiser on
every name without NUL. The upload pipeline keeps the as-written
`Sanitize.SanitizeFilename`, so that it describes the command as it runs. By
`StrictAgreesWithoutNul`, the two give the same destination for every name
without NUL. In `compress_uploaded_files` the flaw does not lead to a traversal: the
only sanitised names that are not plain file names are "", "." and "..".
For each of them the temporary write fails (`Upload.NulNameNotSaved`), and
every upload that reaches an output directory is written directly inside it
(`Upload.UploadStaysInOutputDir`). Other callers of the sanitiser get no
such protection.

## Left out

- Codec and library calls: `image::open` and `save_with_format`, `JpegEncoder`, `imagequant`, `png::Encoder`, `oxipng`, `webp::Encoder` and `img_parts`. They are foreign code. Each is an oracle that returns bytes or fails; the pixel data it works on is not modelled.
- Base64 decoding is the oracle `decode`.
- File-system effects are I/O and appear only as success flags. This covers temporary directories, `fs::read`, `fs::write`, `fs::copy`, `fs::metadata`, `create_dir_all` and `remove_dir_all`. The temporary directory is never removed when an error returns early; that is not modelled.
- The temporary file name `{stem}_compressed.{ext}` is an I/O detail and is not modelled. The bytes it holds are.
- Resizing and the aspect-ratio computation (the resize and aspect-ratio parameters) use floating point. The model has no resize step.
- The JPEG score formula is floating point. Only the keep-best loop is modelled, over an abstract `real` score.
- The savings ratio is floating point and is only logged.
- The `TEMP_DIRS` global map is shared mutable state that is only ever inserted into.
- Tauri plumbing is not modelled: `main`, the command attributes, `stat_path` and the logging.
- Panics are not modelled. Two `unwrap` calls inside `compress_image` would abort the call rather than return an error: `TEMP_DIRS.lock().unwrap()` (line 132) on a poisoned lock, and `WebPConfig::new().unwrap()` (line 276). The model assumes neither fails.
- Path strings are not parsed: the commands' path arguments are taken as component sequences. Windows prefixes and '\' as a separator are not modelled.
- Batch.ErrorText: library and I/O error messages are named by the failing step, not by the library's own text. Two messages are exact: "No extension", and "Unsupported format: " followed by the extension. The second is exact only for ASCII extensions, since the model lower-cases ASCII only where the source uses Unicode `to_lowercase`. "Failed to create temp dir: " and "WebP encode failed: " are the exact prefixes `compress_image` writes, without the I/O or encoder text that follows them. The other texts name the failing step.
- Compress.CompressImage: the compressed size is taken to be the length of the bytes copied to the destination. A destination changed by another process between the copy and the `metadata` call is not modelled.
- Compress.EncodePngLossy: the model assumes that a failed rewrite of the optimised PNG leaves the quantised bytes in the temporary file. `fs::write` truncates the file first, so a write that fails part-way leaves a truncated file. Its error is ignored (line 218), and those bytes are what `fs::copy` then writes.
- Compress.PreserveExifData: the model assumes that a failed EXIF rewrite leaves the compressed JPEG in the temporary file. A write that fails part-way leaves a truncated file. The error is ignored (line 299), and those bytes are what `fs::copy` then writes.
- Compress.EncodeWith: for lossless JPEG the model assumes that the buffered write of the quality-100 encoding reaches the temporary file in full. The encoder at lines 224-228 owns a `BufWriter` that is dropped at the end of the block without a checked `flush`, so a failure of the last buffered write is lost: the file may be truncated while `compress_image` still returns `Ok`.
- Compress.JpegLosslessAt100: states the content as the full quality-100 encoding, under the same assumption about the unchecked flush of the `BufWriter` at lines 224-228.
- Compress.CompressImage: an error result carries no file effect. When the copy succeeds and the `metadata` call on the destination then fails (lines 311-313), the destination has already been overwritten, but the model's `Err` does not say so. For `compress_images` that destination is the original file.


=== FILE: batch.dfy ===
/** `compress_images`: compress every path in place, one row per path. */
module Batch {
  import opened Wrappers
  import opened Paths
  import opened Format
  import opened Policy
  import opened Compress

  datatype BatchStatus = Done | Failed(error: CompressError)

  /** One `(path, original_size, compressed_size, status)` row. */
  datatype BatchRow = BatchRow(path: Path, originalSize: nat, compressedSize: nat, status: BatchStatus)

  /** The row for one path. */
  function CompressOne(p: Path, s: Settings, io: CompressIo): (row: BatchRow)
    ensures row.path == p
    ensures row.status.Done? <==> CompressImage(p, s, None, io).Ok?
    ensures row.status.Done? ==>
              row.originalSize == CompressImage(p, s, None, io).value.originalSize
              && row.compressedSize == CompressImage(p, s, None, io).value.compressedSize
    ensures row.status.Failed? ==>
              row.originalSize == 0 && row.compressedSize == 0
              && row.status.error == CompressImage(p, s, None, io).error
  {
    match CompressImage(p, s, None, io)
    case Ok(c) => BatchRow(p, c.originalSize, c.compressedSize, Done)
    case Err(e) => BatchRow(p, 0, 0, Failed(e))
  }

  /**
   * The loop of `compress_images`: one row per path, in order, each row
   * depending only on its own path and I/O.
   */
  function CompressImages(paths: seq<Path>, s: Settings, ios: seq<CompressIo>): (rows: seq<BatchRow>)
    requires |ios| == |paths|
    ensures |rows| == |paths|
    ensures forall i :: 0 <= i < |paths| ==> rows[i] == CompressOne(paths[i], s, ios[i])
    decreases |paths|
  {
    if |paths| == 0 then []
    else [CompressOne(paths[0], s, ios[0])] + CompressImages(paths[1..], s, ios[1..])
  }

  /**
   * Every row echoes its path; failures carry sizes (0, 0); every success has
   * overwritten its own path.
   */
  lemma CompressImagesInPlace(paths: seq<Path>, s: Settings, ios: seq<CompressIo>)
    requires |ios| == |paths|
    ensures forall i :: 0 <= i < |paths| ==> CompressImages(paths, s, ios)[i].path == paths[i]
    ensures forall i :: 0 <= i < |paths| && CompressImages(paths, s, ios)[i].status.Failed? ==>
              CompressImages(paths, s, ios)[i].originalSize == 0 && CompressImages(paths, s, ios)[i].compressedSize == 0
    ensures forall i :: 0 <= i < |paths| && CompressImages(paths, s, ios)[i].status.Done? ==>
              CompressImage(paths[i], s, None, ios[i]).value.destination == paths[i]
  {
  }

  /** The status text: "success", or "error: " followed by the error. */
  function StatusText(st: BatchStatus): (t: string)
    ensures st.Done? <==> t == "success"
    ensures st.Failed? ==> |t| >= 7 && t[..7] == "error: "
  {
    match st
    case Done => "success"
    case Failed(e) => "error: " + ErrorText(e)
  }

  /**
   * The message of an error. The format errors carry the exact texts of
   * `detect_image_format`; the temporary-directory and WebP failures carry the
   * exact prefixes `compress_image` writes, without the library's text after
   * them; the other failures, whose text comes from a library, are named by
   * the failing step.
   */
  function ErrorText(e: CompressError): (t: string)
    ensures t == "No extension" <==> e == FormatFailed(NoExtension)
    ensures e.FormatFailed? && e.reason.Unsupported? ==> t == "Unsupported format: " + e.reason.ext
    ensures e == TempDirFailed ==> t == "Failed to create temp dir: "
    ensures e == WebPEncodeFailed ==> t == "WebP encode failed: "
  {
    match e
    case FormatFailed(NoExtension) => "No extension"
    case FormatFailed(Unsupported(ext)) => "Unsupported format: " + ext
    case MetadataFailed => "metadata"
    case OpenFailed => "open"
    case TempDirFailed => "Failed to create temp dir: "
    case EncodeFailed => "encode"
    case WebPEncodeFailed => "WebP encode failed: "
    case TempFileFailed => "temporary file"
    case CreateDirFailed => "create output directory"
    case CopyFailed => "copy"
    case StatFailed => "metadata of output"
  }

  /** Two unsupported extensions give the same message only when they are the same. */
  lemma UnsupportedTextNamesExtension(a: string, b: string)
    ensures ErrorText(FormatFailed(Unsupported(a))) == ErrorText(FormatFailed(Unsupported(b))) <==> a == b
  {
    var pre := "Unsupported format: ";
    if pre + a == pre + b {
      assert a == (pre + a)[|pre|..];
      assert b == (pre + b)[|pre|..];
    }
  }
}

=== FILE: compress.dfy ===
/**
 * `compress_image` and `preserve_exif_data`. The codecs and the file system
 * are oracles: a `CompressIo` value says, for one call, how each effectful
 * step turns out, and the model decides everything else.
 */
module Compress {
  import opened Wrappers
  import opened Paths
  import opened Format
  import opened Policy
  import opened Destination

  type Blob = seq<bv8>

  /** A call into a codec on the decoded (and possibly resized) image. */
  datatype CodecCall =
    | SavePng                                               // save_with_format(Png)
    | Oxipng(preset: int, stripAll: bool, input: Blob)       // oxipng::optimize_from_memory
    | Quantize(minQuality: int, target: int, speed: int, dither: DitherLevel) // quantize_once
    | EncodeJpeg(quality: int)                              // JpegEncoder::new_with_quality
    | SaveWebP                                              // save_with_format(WebP)
    | EncodeWebP(quality: int)                              // webp::Encoder::encode_advanced

  /** How the steps of `preserve_exif_data` turn out. */
  datatype ExifIo = ExifIo(
    readsOk: bool,                          // fs::read of the original and of the temporary file
    originalExif: Option<Option<Blob>>,     // parse of the original JPEG: None on error, else its EXIF
    reinsert: (Blob, Blob) -> Option<Blob>, // parse the compressed JPEG, set the EXIF, write it out
    writeOk: bool)                          // fs::write of the result

  /** How the codec calls and temporary-file steps of the encoding block turn out. */
  datatype EncodeIo = EncodeIo(
    codec: CodecCall -> Option<Blob>,
    score: (int, Blob) -> real,             // the JPEG candidate score, abstracted
    tempFileOk: bool,                       // the temporary-file reads and writes whose errors propagate
    optimizedWriteOk: bool)                 // the write of the optimised lossy PNG, whose error is ignored

  /** How the effectful steps of one `compress_image` call turn out. */
  datatype CompressIo = CompressIo(
    originalSize: Option<nat>,              // fs::metadata(original).len()
    decodeOk: bool,                         // image::open
    tempDirOk: bool,                        // create_dir_all of the temporary directory
    encode: EncodeIo,
    exif: ExifIo,
    parentDirOk: bool,                      // create_dir_all of the output file's parent
    copyOk: bool,                           // fs::copy of the temporary file to the destination
    statOk: bool)                           // fs::metadata of the destination

  datatype CompressError =
    | FormatFailed(reason: FormatError)
    | MetadataFailed
    | OpenFailed
    | TempDirFailed
    | EncodeFailed
    | WebPEncodeFailed                      // "WebP encode failed: {:?}"
    | TempFileFailed
    | CreateDirFailed
    | CopyFailed
    | StatFailed

  /** A successful call: the two sizes it returns, and the file it wrote with what. */
  datatype Compressed = Compressed(originalSize: nat, compressedSize: nat, destination: Path, content: Blob)

  // ---------------------------------------------------------------- JPEG search

  /** An encoding kept by the best-of loop with its score. */
  datatype Pick = Pick(quality: int, data: Blob, score: real)

  /** One candidate encoding with its score, or none when the encoder fails. */
  function Attempt(q: int, codec: CodecCall -> Option<Blob>, score: (int, Blob) -> real): (r: Option<Pick>)
    ensures r.None? <==> codec(EncodeJpeg(q)).None?
    ensures r.Some? ==> r.value.quality == q && codec(EncodeJpeg(q)) == Some(r.value.data)
    ensures r.Some? ==> r.value.score == score(q, r.value.data)
  {
    match codec(EncodeJpeg(q))
    case None => None
    case Some(d) => Some(Pick(q, d, score(q, d)))
  }

  /**
   * The best-of loop over the candidates: any encoder failure aborts; otherwise
   * a candidate replaces the current best only when its score is strictly
   * greater. The result is the best start when no candidate beats it, else the
   * first candidate with the highest score.
   */
  function SelectBest(cands: seq<int>, codec: CodecCall -> Option<Blob>, score: (int, Blob) -> real, best: Pick): (r: Option<Pick>)
    ensures r.None? <==> exists i :: 0 <= i < |cands| && Attempt(cands[i], codec, score).None?
    ensures r.Some? ==> best.score <= r.value.score
    ensures r.Some? ==> forall i :: 0 <= i < |cands| ==> Attempt(cands[i], codec, score).value.score <= r.value.score
    ensures r.Some? ==>
              || r.value == best
              || exists i :: 0 <= i < |cands| && Attempt(cands[i], codec, score) == Some(r.value)
                             && best.score < r.value.score
                             && forall j :: 0 <= j < i ==> Attempt(cands[j], codec, score).value.score < r.value.score
    decreases |cands|
  {
    if |cands| == 0 then Some(best)
    else match Attempt(cands[0], codec, score)
      case None => None
      case Some(p) =>
        var r := SelectBest(cands[1..], codec, score, if p.score > best.score then p else best);
        assert forall i :: 1 <= i < |cands| ==> cands[i] == cands[1..][i - 1];
        if r.Some? && r.value != best && r.value != p then
          var i :| 0 <= i < |cands[1..]| && Attempt(cands[1..][i], codec, score) == Some(r.value)
                   && (if p.score > best.score then p else best).score < r.value.score
                   && forall j :: 0 <= j < i ==> Attempt(cands[1..][j], codec, score).value.score < r.value.score;
          assert Attempt(cands[i + 1], codec, score) == Some(r.value);
          r
        else
          r
  }

  /** The quality whose encoding the best-of loop keeps is the base or a candidate. */
  lemma SelectBestQuality(cands: seq<int>, codec: CodecCall -> Option<Blob>, score: (int, Blob) -> real, best: Pick)
    requires SelectBest(cands, codec, score, best).Some?
    ensures var p := SelectBest(cands, codec, score, best).value;
      || p == best
      || (p.quality in cands && codec(EncodeJpeg(p.quality)) == Some(p.data))
  {
    var p := SelectBest(cands, codec, score, best).value;
    if p != best {
      var i :| 0 <= i < |cands| && Attempt(cands[i], codec, score) == Some(p);
      assert p.quality == cands[i];
    }
  }

  // ---------------------------------------------------------------- encoding

  /**
   * The `match format` block of `compress_image`: the bytes left in the
   * temporary file. Every plan but lossless WebP writes or reads the temporary
   * file itself and fails when it cannot; every success is the output of one
   * codec call, and a JPEG success is an encoding at a quality the plan allows.
   */
  function EncodeWith(plan: EncodePlan, io: EncodeIo): (r: Result<Blob, CompressError>)
    ensures !plan.WebPSave? && !io.tempFileOk ==> r.Err?
    ensures r.Ok? ==> exists c :: io.codec(c) == Some(r.value)
    ensures plan.JpegFixed? ==>
              (r.Ok? <==> io.tempFileOk && io.codec(EncodeJpeg(plan.quality)).Some?)
              && (r.Ok? ==> io.codec(EncodeJpeg(plan.quality)) == Some(r.value))
    ensures plan.JpegSearch? && r.Ok? ==>
              exists q :: (q == plan.base || q in plan.candidates) && io.codec(EncodeJpeg(q)) == Some(r.value)
    ensures plan.JpegSearch? ==> r == EncodeJpegSearch(plan.base, plan.candidates, io)
    ensures plan.WebPSave? ==>
              (r.Ok? <==> io.codec(SaveWebP).Some?) && (r.Ok? ==> io.codec(SaveWebP) == Some(r.value))
    ensures plan.WebPEncode? ==>
              (r.Ok? <==> io.tempFileOk && io.codec(EncodeWebP(plan.quality)).Some?)
              && (r.Ok? ==> io.codec(EncodeWebP(plan.quality)) == Some(r.value))
              && (io.codec(EncodeWebP(plan.quality)).None? ==> r == Err(WebPEncodeFailed))
  {
    match plan
    case PngOptimize(preset) => EncodePngLossless(preset, io)
    case PngQuantize(q, preset, stripAll) => EncodePngLossy(q, preset, stripAll, io)
    case JpegFixed(quality) =>
      if !io.tempFileOk then Err(TempFileFailed)
      else OrEncodeFailed(io.codec(EncodeJpeg(quality)))
    case JpegSearch(base, cands) => EncodeJpegSearch(base, cands, io)
    case WebPSave => OrEncodeFailed(io.codec(SaveWebP))
    case WebPEncode(quality) =>
      match io.codec(EncodeWebP(quality))
      case None => Err(WebPEncodeFailed)
      case Some(data) => if !io.tempFileOk then Err(TempFileFailed) else Ok(data)
  }

  function OrEncodeFailed(r: Option<Blob>): Result<Blob, CompressError> {
    match r
    case None => Err(EncodeFailed)
    case Some(data) => Ok(data)
  }

  /**
   * Lossless PNG: save as PNG, read it back, optimise with oxipng. Success
   * needs all three, and the result is what oxipng made of the saved PNG.
   */
  function EncodePngLossless(preset: int, io: EncodeIo): (r: Result<Blob, CompressError>)
    ensures r.Ok? <==> io.codec(SavePng).Some? && io.tempFileOk
                       && io.codec(Oxipng(preset, false, io.codec(SavePng).value)).Some?
    ensures r.Ok? ==> io.codec(Oxipng(preset, false, io.codec(SavePng).value)) == Some(r.value)
  {
    match io.codec(SavePng)
    case None => Err(EncodeFailed)
    case Some(png) =>
      if !io.tempFileOk then Err(TempFileFailed)
      else OrEncodeFailed(io.codec(Oxipng(preset, false, png)))
  }

  /**
   * Lossy PNG: quantise, write and read back, then optimise with oxipng. Only
   * the quantiser and the temporary file can fail it; the optimised bytes are
   * kept only when oxipng succeeds and their write succeeds.
   */
  function EncodePngLossy(q: QuantSettings, preset: int, stripAll: bool, io: EncodeIo): (r: Result<Blob, CompressError>)
    ensures r.Ok? <==> io.codec(Quantize(q.MinQuality(), q.target, q.speed, q.dither)).Some? && io.tempFileOk
    ensures r.Ok? ==>
              var quantized := io.codec(Quantize(q.MinQuality(), q.target, q.speed, q.dither)).value;
              var optimized := io.codec(Oxipng(preset, stripAll, quantized));
              r.value == (if optimized.Some? && io.optimizedWriteOk then optimized.value else quantized)
  {
    match io.codec(Quantize(q.MinQuality(), q.target, q.speed, q.dither))
    case None => Err(EncodeFailed)
    case Some(quantized) =>
      if !io.tempFileOk then Err(TempFileFailed)
      else match io.codec(Oxipng(preset, stripAll, quantized))
        case Some(optimized) => Ok(if io.optimizedWriteOk then optimized else quantized)
        case None => Ok(quantized)
  }

  /**
   * Lossy JPEG: encode at the base quality, run the best-of loop, write the
   * winner. Any failing encoding fails the image; the winner is an encoding at
   * the base quality or at a candidate quality.
   */
  function EncodeJpegSearch(base: int, cands: seq<int>, io: EncodeIo): (r: Result<Blob, CompressError>)
    ensures r.Ok? <==> io.codec(EncodeJpeg(base)).Some? && io.tempFileOk
                       && forall i :: 0 <= i < |cands| ==> io.codec(EncodeJpeg(cands[i])).Some?
    ensures r.Ok? ==> exists q :: (q == base || q in cands) && io.codec(EncodeJpeg(q)) == Some(r.value)
    ensures r.Ok? ==>
              r.value == SelectBest(cands, io.codec, io.score, Pick(base, io.codec(EncodeJpeg(base)).value, 0.0)).value.data
  {
    match io.codec(EncodeJpeg(base))
    case None => Err(EncodeFailed)
    case Some(data) =>
      var start := Pick(base, data, 0.0);
      match SelectBest(cands, io.codec, io.score, start)
      case None => Err(EncodeFailed)
      case Some(best) =>
        SelectBestQuality(cands, io.codec, io.score, start);
        assert best == start ==> io.codec(EncodeJpeg(base)) == Some(best.data);
        if !io.tempFileOk then Err(TempFileFailed) else Ok(best.data)
  }

  // ---------------------------------------------------------------- EXIF

  /** What `preserve_exif_data` returns, and the temporary file's content after it. */
  datatype ExifOutcome = ExifOutcome(ok: bool, content: Blob)

  /**
   * `preserve_exif_data`: only a JPEG original is parsed for EXIF; when it has
   * one, the EXIF is set on the compressed JPEG and the file rewritten. Every
   * other path leaves the file as it was.
   */
  function PreserveExifData(format: ImageFormat, io: ExifIo, compressed: Blob): (r: ExifOutcome)
    ensures format != Jpeg ==> r.content == compressed
    ensures r.content != compressed ==>
              && format == Jpeg
              && io.originalExif.Some? && io.originalExif.value.Some?
              && io.reinsert(compressed, io.originalExif.value.value) == Some(r.content)
    ensures format == Jpeg && io.readsOk && io.originalExif.Some? && io.originalExif.value.Some?
            && io.reinsert(compressed, io.originalExif.value.value).Some? && io.writeOk ==>
              r == ExifOutcome(true, io.reinsert(compressed, io.originalExif.value.value).value)
    ensures r.ok <==>
              && io.readsOk
              && (format == Jpeg ==>
                    && io.originalExif.Some?
                    && (io.originalExif.value.Some? ==>
                          io.reinsert(compressed, io.originalExif.value.value).Some? && io.writeOk))
    ensures !r.ok ==> r.content == compressed
  {
    if !io.readsOk then ExifOutcome(false, compressed)
    else if format != Jpeg then ExifOutcome(true, compressed)
    else match io.originalExif
      case None => ExifOutcome(false, compressed)
      case Some(None) => ExifOutcome(true, compressed)
      case Some(Some(exif)) =>
        match io.reinsert(compressed, exif)
        case None => ExifOutcome(false, compressed)
        case Some(rewritten) => if io.writeOk then ExifOutcome(true, rewritten) else ExifOutcome(false, compressed)
  }

  /** The EXIF step of `compress_image`: run only for JPEG with `preserve_exif`, its result discarded. */
  function ApplyExif(s: Settings, format: ImageFormat, io: ExifIo, encoded: Blob): (r: Blob)
    ensures !(s.preserveExif && format == Jpeg) ==> r == encoded
    ensures s.preserveExif && format == Jpeg ==> r == PreserveExifData(format, io, encoded).content
  {
    if s.preserveExif && format == Jpeg then PreserveExifData(format, io, encoded).content else encoded
  }

  // ---------------------------------------------------------------- compress_image

  /** `compress_image`, without the resize step. */
  function CompressImage(original: Path, s: Settings, output: Option<Path>, io: CompressIo): (r: Result<Compressed, CompressError>)
    ensures DetectImageFormat(original).Err? ==> r == Err(FormatFailed(DetectImageFormat(original).error))
    ensures r.Ok? <==>
              && DetectImageFormat(original).Ok?
              && io.originalSize.Some?
              && io.decodeOk
              && io.tempDirOk
              && EncodeWith(PlanFor(DetectImageFormat(original).value, s), io.encode).Ok?
              && (output.Some? && Parent(output.value).Some? ==> io.parentDirOk)
              && io.copyOk
              && io.statOk
    ensures io.originalSize.None? || !io.decodeOk || !io.tempDirOk || !io.copyOk || !io.statOk ==> r.Err?
    ensures output.Some? && Parent(output.value).Some? && !io.parentDirOk ==> r.Err?
    ensures r.Ok? ==>
              var f := DetectImageFormat(original).value;
              r.value.content == ApplyExif(s, f, io.exif, EncodeWith(PlanFor(f, s), io.encode).value)
    ensures r.Ok? ==> r.value.destination == FinalPath(original, output)
    ensures r.Ok? ==> io.originalSize == Some(r.value.originalSize) && r.value.compressedSize == |r.value.content|
  {
    match DetectImageFormat(original)
    case Err(e) => Err(FormatFailed(e))
    case Ok(format) =>
      if io.originalSize.None? then Err(MetadataFailed)
      else if !io.decodeOk then Err(OpenFailed)
      else if !io.tempDirOk then Err(TempDirFailed)
      else match EncodeWith(PlanFor(format, s), io.encode)
        case Err(e) => Err(e)
        case Ok(encoded) =>
          var content := ApplyExif(s, format, io.exif, encoded);
          if output.Some? && Parent(output.value).Some? && !io.parentDirOk then Err(CreateDirFailed)
          else if !io.copyOk then Err(CopyFailed)
          else if !io.statOk then Err(StatFailed)
          else Ok(Compressed(io.originalSize.value, |content|, FinalPath(original, output), content))
  }

  /**
   * A failing EXIF step never fails the image: whether `compress_image`
   * succeeds does not depend on the EXIF steps at all, and unless the format is
   * JPEG and `preserve_exif` is set, neither does anything else.
   */
  lemma ExifErrorsDiscarded(original: Path, s: Settings, output: Option<Path>, io: CompressIo, other: ExifIo)
    ensures CompressImage(original, s, output, io).Ok? == CompressImage(original, s, output, io.(exif := other)).Ok?
    ensures !(s.preserveExif && DetectImageFormat(original) == Ok(Jpeg)) ==>
              CompressImage(original, s, output, io) == CompressImage(original, s, output, io.(exif := other))
  {
    var io2 := io.(exif := other);
    assert io2.encode == io.encode;
  }

  /**
   * Lossless JPEG is one encoding at quality 100; with `preserve_exif` the
   * EXIF step then runs on that encoding.
   */
  lemma JpegLosslessAt100(original: Path, s: Settings, output: Option<Path>, io: CompressIo)
    requires DetectImageFormat(original) == Ok(Jpeg)
    requires s.lossless
    requires CompressImage(original, s, output, io).Ok?
    ensures io.encode.codec(EncodeJpeg(100)).Some?
    ensures CompressImage(original, s, output, io).value.content
            == ApplyExif(s, Jpeg, io.exif, io.encode.codec(EncodeJpeg(100)).value)
  {
  }

  /**
   * Lossy JPEG always writes an encoding made at a quality in [60, 95],
   * whatever `quality_jpg` is; with `preserve_exif` the EXIF step then runs on
   * that encoding.
   */
  lemma JpegLossyQualityInRange(original: Path, s: Settings, output: Option<Path>, io: CompressIo)
    requires DetectImageFormat(original) == Ok(Jpeg)
    requires !s.lossless
    ensures CompressImage(original, s, output, io).Ok? ==>
              exists q :: 60 <= q <= 95 && io.encode.codec(EncodeJpeg(q)).Some?
                          && CompressImage(original, s, output, io).value.content
                             == ApplyExif(s, Jpeg, io.exif, io.encode.codec(EncodeJpeg(q)).value)
  {
    if CompressImage(original, s, output, io).Err? {
      return;
    }
    PlanProperties(Jpeg, s);
    var plan := PlanFor(Jpeg, s);
    var encoded := EncodeWith(plan, io.encode).value;
    var q :| (q == plan.base || q in plan.candidates) && io.encode.codec(EncodeJpeg(q)) == Some(encoded);
    assert 60 <= q <= 95;
  }

  /**
   * Lossy JPEG writes the encoding the best-of loop picks, starting from the
   * base encoding with score 0.0 and trying the candidate qualities in order;
   * with `preserve_exif` the EXIF step then runs on it.
   */
  lemma JpegLossyWritesBestPick(original: Path, s: Settings, output: Option<Path>, io: CompressIo)
    requires DetectImageFormat(original) == Ok(Jpeg)
    requires !s.lossless
    ensures CompressImage(original, s, output, io).Ok? ==>
              var base := JpegBaseQuality(s.qualityJpg);
              var start := Pick(base, io.encode.codec(EncodeJpeg(base)).value, 0.0);
              var pick := SelectBest(JpegCandidates(s.qualityJpg), io.encode.codec, io.encode.score, start);
              && pick.Some?
              && CompressImage(original, s, output, io).value.content == ApplyExif(s, Jpeg, io.exif, pick.value.data)
  {
    if CompressImage(original, s, output, io).Ok? {
      PlanProperties(Jpeg, s);
    }
  }

  /**
   * With `preserve_exif`, a JPEG whose original carries EXIF is written with
   * that EXIF re-inserted into the compressed encoding, when every EXIF step
   * succeeds.
   */
  lemma ExifReinserted(original: Path, s: Settings, output: Option<Path>, io: CompressIo, exif: Blob)
    requires DetectImageFormat(original) == Ok(Jpeg) && s.preserveExif
    requires io.exif.readsOk && io.exif.originalExif == Some(Some(exif)) && io.exif.writeOk
    ensures CompressImage(original, s, output, io).Ok?
            && io.exif.reinsert(EncodeWith(PlanFor(Jpeg, s), io.encode).value, exif).Some? ==>
              CompressImage(original, s, output, io).value.content
              == io.exif.reinsert(EncodeWith(PlanFor(Jpeg, s), io.encode).value, exif).value
  {
  }

  /**
   * The oxipng pass is optional for lossy PNG and mandatory for lossless PNG:
   * when it fails, lossy PNG keeps the quantised image and lossless PNG fails.
   */
  lemma PngOptimizerFailure(original: Path, s: Settings, output: Option<Path>, io: CompressIo)
    requires DetectImageFormat(original) == Ok(Png)
    requires forall input: Blob :: io.encode.codec(Oxipng(1, false, input)).None? && io.encode.codec(Oxipng(2, true, input)).None?
    ensures s.lossless ==> CompressImage(original, s, output, io).Err?
    ensures !s.lossless && CompressImage(original, s, output, io).Ok? ==>
              var q := QuantSettingsFor(s.qualityPng);
              io.encode.codec(Quantize(q.MinQuality(), q.target, q.speed, q.dither)) == Some(CompressImage(original, s, output, io).value.content)
  {
  }

  /** Lossy WebP hands `quality_webp` to the encoder as given. */
  lemma WebPLossyQuality(original: Path, s: Settings, output: Option<Path>, io: CompressIo)
    requires DetectImageFormat(original) == Ok(WebP)
    requires !s.lossless
    requires CompressImage(original, s, output, io).Ok?
    ensures io.encode.codec(EncodeWebP(s.qualityWebp)) == Some(CompressImage(original, s, output, io).value.content)
  {
  }

  /** Lossless WebP is the image saved as WebP, untouched by any other step. */
  lemma WebPLosslessSaved(original: Path, s: Settings, output: Option<Path>, io: CompressIo)
    requires DetectImageFormat(original) == Ok(WebP)
    requires s.lossless
    requires CompressImage(original, s, output, io).Ok?
    ensures io.encode.codec(SaveWebP) == Some(CompressImage(original, s, output, io).value.content)
  {
  }

  /**
   * Lossy PNG keeps oxipng's output (preset 2, all chunks stripped) of the
   * quantised image when the optimiser and the rewrite succeed.
   */
  lemma PngOptimizedKept(original: Path, s: Settings, output: Option<Path>, io: CompressIo)
    requires DetectImageFormat(original) == Ok(Png)
    requires !s.lossless && io.encode.optimizedWriteOk
    requires CompressImage(original, s, output, io).Ok?
    ensures var q := QuantSettingsFor(s.qualityPng);
      var quantized := io.encode.codec(Quantize(q.MinQuality(), q.target, q.speed, q.dither)).value;
      io.encode.codec(Oxipng(2, true, quantized)).Some? ==>
        io.encode.codec(Oxipng(2, true, quantized)) == Some(CompressImage(original, s, output, io).value.content)
  {
  }
}

=== FILE: destination.dfy ===
/**
 * Destination resolution: which file `compress_image` reads and which path it
 * writes, for one uploaded item.
 */
module Destination {
  import opened Wrappers
  import opened Paths

  /** The two path arguments handed to `compress_image`. */
  datatype Target = Target(source: Path, output: Option<Path>)

  /** The output directory joined with the sanitised name, or None without an output directory. */
  function OutputFilePath(outputDir: Option<Path>, sanitized: string): Option<Path>
    requires '/' !in sanitized
  {
    match outputDir
    case None => None
    case Some(dir) => Some(Join(dir, sanitized))
  }

  /**
   * The item's target, or none when there is neither an output directory nor
   * a source path (status `missing_source_path`). The file read is the source
   * path, falling back to the temporary copy.
   */
  function ResolveTarget(outputDir: Option<Path>, sourcePath: Option<Path>, tempPath: Path, sanitized: string): Option<Target>
    requires '/' !in sanitized
  {
    var output := OutputFilePath(outputDir, sanitized);
    if output.None? && sourcePath.None? then None
    else Some(Target(sourcePath.GetOr(tempPath), output))
  }

  /** The file `compress_image` finally writes: the output path if given, else the file it read. */
  function FinalPath(original: Path, output: Option<Path>): Path {
    output.GetOr(original)
  }

  /**
   * Where an uploaded item ends up. With an output directory it is that
   * directory joined with the sanitised name (one more component when the name
   * is neither "" nor "."); without one it is the source path itself,
   * overwritten in place; with neither there is no target.
   */
  lemma DestinationCases(outputDir: Option<Path>, sourcePath: Option<Path>, tempPath: Path, sanitized: string)
    requires '/' !in sanitized
    ensures ResolveTarget(outputDir, sourcePath, tempPath, sanitized).None? <==> outputDir.None? && sourcePath.None?
    ensures outputDir.Some? ==>
              var t := ResolveTarget(outputDir, sourcePath, tempPath, sanitized).value;
              && FinalPath(t.source, t.output) == Join(outputDir.value, sanitized)
              && (sanitized != "" && sanitized != "." ==> FinalPath(t.source, t.output) == outputDir.value + [sanitized])
              && t.source == (if sourcePath.Some? then sourcePath.value else tempPath)
    ensures outputDir.None? && sourcePath.Some? ==>
              var t := ResolveTarget(outputDir, sourcePath, tempPath, sanitized).value;
              && t.source == sourcePath.value
              && t.output.None?
              && FinalPath(t.source, t.output) == sourcePath.value
  {
  }
}

=== FILE: format.dfy ===
/**
 * Format classification: `detect_image_format` on a path's extension, and the
 * upload tag check of `compress_uploaded_files`.
 */
module Format {
  import opened Wrappers
  import opened Paths

  datatype ImageFormat = Png | Jpeg | WebP

  datatype FormatError =
    | NoExtension          // "No extension"
    | Unsupported(ext: string)  // "Unsupported format: <ext>", with the lower-cased extension

  /**
   * Lower-casing of ASCII letters. `detect_image_format` uses Unicode
   * `to_lowercase`, but no character outside ASCII lower-cases to one of the
   * letters of "png", "jpg", "jpeg" or "webp", so the classification agrees.
   */
  function AsciiLowerChar(c: char): (r: char)
    ensures 'A' <= c <= 'Z' ==> r as int == c as int + 32
    ensures !('A' <= c <= 'Z') ==> r == c
  {
    if 'A' <= c <= 'Z' then (c as int + 32) as char else c
  }

  function AsciiLower(s: string): (r: string)
    ensures |r| == |s|
    ensures forall i :: 0 <= i < |s| ==> r[i] == AsciiLowerChar(s[i])
  {
    seq(|s|, i requires 0 <= i < |s| => AsciiLowerChar(s[i]))
  }

  /** `str::eq_ignore_ascii_case`. */
  predicate EqIgnoreAsciiCase(a: string, b: string) {
    |a| == |b| && forall i :: 0 <= i < |a| ==> AsciiLowerChar(a[i]) == AsciiLowerChar(b[i])
  }

  /** The match on the lower-cased extension inside `detect_image_format`. */
  function ClassifyExtension(ext: Option<string>): Result<ImageFormat, FormatError> {
    match ext
    case None => Err(NoExtension)
    case Some(e) =>
      var lower := AsciiLower(e);
      if lower == "png" then Ok(Png)
      else if lower == "jpg" || lower == "jpeg" then Ok(Jpeg)
      else if lower == "webp" then Ok(WebP)
      else Err(Unsupported(lower))
  }

  /** `detect_image_format`. */
  function DetectImageFormat(p: Path): (r: Result<ImageFormat, FormatError>)
    ensures r == Err(NoExtension) <==> Extension(p).None?
    ensures r.Ok? ==> FileName(p).Some?
  {
    ClassifyExtension(Extension(p))
  }

  /** The tags `compress_uploaded_files` accepts. */
  const UploadFormats: seq<string> := ["png", "jpg", "jpeg", "webp"]

  /** The upload tag check: some accepted tag equals `tag` up to ASCII case. */
  predicate IsSupportedTag(tag: string) {
    exists k :: 0 <= k < |UploadFormats| && EqIgnoreAsciiCase(UploadFormats[k], tag)
  }

  /** ASCII-case-insensitive equality is equality after lower-casing. */
  lemma EqIgnoreCaseIsLowerEq(a: string, b: string)
    ensures EqIgnoreAsciiCase(a, b) <==> AsciiLower(a) == AsciiLower(b)
  {
    if AsciiLower(a) == AsciiLower(b) {
      assert forall i :: 0 <= i < |a| ==> AsciiLower(a)[i] == AsciiLower(b)[i];
    }
  }

  /** Classification sees the extension only up to ASCII case. */
  lemma ClassifyIgnoresCase(a: string, b: string)
    requires EqIgnoreAsciiCase(a, b)
    ensures ClassifyExtension(Some(a)) == ClassifyExtension(Some(b))
  {
    EqIgnoreCaseIsLowerEq(a, b);
  }

  /**
   * What `detect_image_format` accepts: "png" gives Png, "jpg" and "jpeg" give
   * Jpeg, "webp" gives WebP, in any ASCII case; a missing extension and every
   * other extension are errors.
   */
  lemma DetectImageFormatCases(p: Path)
    ensures DetectImageFormat(p) == Ok(Png) <==>
              Extension(p).Some? && EqIgnoreAsciiCase(Extension(p).value, "png")
    ensures DetectImageFormat(p) == Ok(Jpeg) <==>
              Extension(p).Some? && (EqIgnoreAsciiCase(Extension(p).value, "jpg") || EqIgnoreAsciiCase(Extension(p).value, "jpeg"))
    ensures DetectImageFormat(p) == Ok(WebP) <==>
              Extension(p).Some? && EqIgnoreAsciiCase(Extension(p).value, "webp")
    ensures DetectImageFormat(p).Err? <==>
              Extension(p).None? || !IsSupportedTag(Extension(p).value)
  {
    if Extension(p).Some? {
      var e := Extension(p).value;
      LowerWords();
      EqIgnoreCaseIsLowerEq(e, "png");
      EqIgnoreCaseIsLowerEq(e, "jpg");
      EqIgnoreCaseIsLowerEq(e, "jpeg");
      EqIgnoreCaseIsLowerEq(e, "webp");
      TagAcceptedIffClassified(e);
    }
  }

  /** The accepted words are already lower case. */
  lemma LowerWords()
    ensures AsciiLower("png") == "png" && AsciiLower("jpg") == "jpg"
    ensures AsciiLower("jpeg") == "jpeg" && AsciiLower("webp") == "webp"
  {
  }

  /**
   * The two entry points agree: a tag passes the upload check exactly when
   * `detect_image_format` would accept it as an extension.
   */
  lemma TagAcceptedIffClassified(tag: string)
    ensures IsSupportedTag(tag) <==> ClassifyExtension(Some(tag)).Ok?
  {
    LowerWords();
    EqIgnoreCaseIsLowerEq(UploadFormats[0], tag);
    EqIgnoreCaseIsLowerEq(UploadFormats[1], tag);
    EqIgnoreCaseIsLowerEq(UploadFormats[2], tag);
    EqIgnoreCaseIsLowerEq(UploadFormats[3], tag);
    if ClassifyExtension(Some(tag)).Ok? {
      var lower := AsciiLower(tag);
      if lower == "png" {
        assert EqIgnoreAsciiCase(UploadFormats[0], tag);
      } else if lower == "jpg" {
        assert EqIgnoreAsciiCase(UploadFormats[1], tag);
      } else if lower == "jpeg" {
        assert EqIgnoreAsciiCase(UploadFormats[2], tag);
      } else {
        assert EqIgnoreAsciiCase(UploadFormats[3], tag);
      }
    }
  }

  /** A hidden file such as ".png" has no extension, so it has no format. */
  lemma HiddenFileHasNoFormat(dir: Path, ext: string)
    requires '.' !in ext && ext != ""
    ensures DetectImageFormat(dir + ["." + ext]) == Err(NoExtension)
  {
    var name := "." + ext;
    assert name[1..] == ext;
    assert IsNormal(name) by {
      assert name != "." && name != "..";
    }
  }
}

=== FILE: paths.dfy ===
/**
 * File-system paths as sequences of components, following the Unix rules of
 * Rust's `std::path`: the root is the component "/", "." and ".." are the
 * current and parent directory, every other non-empty piece is a normal name.
 */
module Paths {
  import opened Wrappers

  type Path = seq<string>

  const RootDir: string := "/"

  /** A normal component: not the root, not "." and not "..". */
  predicate IsNormal(c: string) {
    c != "" && c != RootDir && c != "." && c != ".."
  }

  /** `Path::file_name`: the last component when it is a normal name. */
  function FileName(p: Path): (r: Option<string>)
    ensures r.Some? <==> |p| > 0 && IsNormal(p[|p| - 1])
    ensures r.Some? ==> r.value == p[|p| - 1]
  {
    if |p| > 0 && IsNormal(p[|p| - 1]) then Some(p[|p| - 1]) else None
  }

  /** Index of the last '.' of `s`, if any. */
  function LastDot(s: string): (r: Option<nat>)
    ensures r.None? <==> '.' !in s
    ensures r.Some? ==> r.value < |s| && s[r.value] == '.' && '.' !in s[r.value + 1..]
  {
    if |s| == 0 then None
    else if s[|s| - 1] == '.' then Some(|s| - 1)
    else
      var r := LastDot(s[..|s| - 1]);
      assert s == s[..|s| - 1] + [s[|s| - 1]];
      r
  }

  /**
   * The extension of a file name, by the rule of Rust's `Path::extension`:
   * the text after the last '.', and none when there is no dot, when the only
   * dot is the leading one (".png") or when the name is "..".
   */
  function FileExtension(name: string): (r: Option<string>)
    ensures r.None? <==> name == ".." || '.' !in name || (name[0] == '.' && '.' !in name[1..])
    ensures r.Some? ==>
              && |r.value| + 1 < |name|
              && name[|name| - |r.value| - 1] == '.'
              && name[|name| - |r.value|..] == r.value
              && '.' !in r.value
  {
    if name == ".." then None
    else match LastDot(name)
      case None => None
      case Some(i) => if i == 0 then None else Some(name[i + 1..])
  }

  /** `Path::extension`. */
  function Extension(p: Path): (r: Option<string>)
    ensures r.Some? ==> FileName(p).Some?
    ensures FileName(p).Some? ==> r == FileExtension(FileName(p).value)
  {
    match FileName(p)
    case None => None
    case Some(n) => FileExtension(n)
  }

  /**
   * A path in the form `Path::components` yields: no empty components, the
   * root only first, and "." only as the very first component.
   */
  predicate Normalised(p: Path) {
    forall i :: 0 <= i < |p| ==> p[i] != "" && (p[i] == RootDir ==> i == 0) && (p[i] == "." ==> i == 0)
  }

  /**
   * On such a path `FileName` is `Path::file_name`: there is none exactly for
   * the empty path, the root, a lone "." and a path ending in "..".
   */
  lemma FileNameOfNormalised(p: Path)
    requires Normalised(p)
    ensures FileName(p).None? <==> |p| == 0 || p == [RootDir] || p == ["."] || p[|p| - 1] == ".."
  {
    if |p| > 0 && (p[|p| - 1] == RootDir || p[|p| - 1] == ".") {
      assert |p| == 1;
      assert p == [p[0]];
    }
  }

  /**
   * `Path::join` with a name holding no separator: the name becomes one more
   * component, except that "" and "." leave the path as it is (Rust's
   * component normalisation drops them).
   */
  function Join(dir: Path, name: string): (r: Path)
    requires '/' !in name
    ensures name != "" && name != "." ==> r == dir + [name]
    ensures name == "" || name == "." ==> r == dir
  {
    if name == "" || name == "." then dir else dir + [name]
  }

  /** `Path::parent`: none for the empty path and for the root. */
  function Parent(p: Path): (r: Option<Path>)
    ensures r.Some? <==> |p| > 0 && p[|p| - 1] != RootDir
    ensures r.Some? ==> r.value + [p[|p| - 1]] == p
  {
    if |p| == 0 || p[|p| - 1] == RootDir then None else Some(p[..|p| - 1])
  }

  /** Joining a separator-free name keeps a path in component form. */
  lemma JoinKeepsNormalised(dir: Path, name: string)
    requires Normalised(dir) && '/' !in name
    ensures Normalised(Join(dir, name))
  {
    if name != "" && name != "." {
      var r := dir + [name];
      assert name != RootDir by {
        assert RootDir[0] == '/';
      }
      forall i | 0 <= i < |r|
        ensures r[i] != "" && (r[i] == RootDir ==> i == 0) && (r[i] == "." ==> i == 0)
      {
        if i < |dir| {
          assert r[i] == dir[i];
        }
      }
    }
  }
}

=== FILE: policy.dfy ===
/**
 * The integer decisions of `compress_image`: which encoder runs for a format
 * and mode, the PNG quantiser settings, and the JPEG candidate qualities.
 */
module Policy {
  import opened Format

  /** Rust's `u8`. */
  type U8 = x: int | 0 <= x < 256

  function SaturatingAddU8(a: U8, b: U8): (r: U8)
    ensures a + b <= 255 ==> r == a + b
    ensures a + b > 255 ==> r == 255
  {
    if a + b > 255 then 255 else a + b
  }

  function SaturatingSubU8(a: U8, b: U8): (r: U8)
    ensures a >= b ==> r == a - b
    ensures a < b ==> r == 0
  {
    if a < b then 0 else a - b
  }

  /** `Ord::clamp`, which panics unless `lo <= hi`. */
  function ClampU8(x: U8, lo: U8, hi: U8): (r: U8)
    requires lo <= hi
    ensures lo <= r <= hi
    ensures lo <= x <= hi ==> r == x
    ensures x < lo ==> r == lo
    ensures x > hi ==> r == hi
  {
    if x < lo then lo else if x > hi then hi else x
  }

  function MinU8(a: U8, b: U8): U8 { if a <= b then a else b }

  function MaxU8(a: U8, b: U8): U8 { if a >= b then a else b }

  /** The settings one batch shares (`CompressionConfig` without the resize fields). */
  datatype Settings = Settings(
    lossless: bool,
    qualityJpg: U8,
    qualityWebp: U8,
    qualityPng: U8,
    preserveExif: bool)

  // ---------------------------------------------------------------- PNG lossy

  /** The dithering level handed to the quantiser: 0.6, 0.8 or 1.0. */
  datatype DitherLevel = DitherLight | DitherMedium | DitherFull {
    /** The level in tenths. */
    function Tenths(): int {
      match this
      case DitherLight => 6
      case DitherMedium => 8
      case DitherFull => 10
    }
  }

  /** The arguments of one `quantize_once` call. */
  datatype QuantSettings = QuantSettings(target: U8, minOffset: U8, speed: U8, dither: DitherLevel) {
    /** The lower bound handed to `set_quality`: `target.saturating_sub(min_offset)`. */
    function MinQuality(): U8 {
      SaturatingSubU8(target, minOffset)
    }
  }

  /** `quality_png.min(100).max(10)`. */
  function PngTarget(qualityPng: U8): U8 {
    MaxU8(MinU8(qualityPng, 100), 10)
  }

  /** The quantiser settings for a PNG quality. */
  function QuantSettingsFor(qualityPng: U8): QuantSettings {
    var target := PngTarget(qualityPng);
    if target >= 80 then QuantSettings(target, 25, 8, DitherLight)
    else if target >= 60 then QuantSettings(target, 30, 9, DitherMedium)
    else QuantSettings(target, 40, 10, DitherFull)
  }

  /**
   * The quantiser settings are always arguments the quantiser accepts:
   * the target is the quality clamped to [10, 100], the minimum quality never
   * exceeds it, and the speed lies in 1..10. The three bands are as listed.
   */
  lemma QuantizerArgumentsValid(qualityPng: U8)
    ensures var q := QuantSettingsFor(qualityPng);
      && 10 <= q.target <= 100
      && (10 <= qualityPng <= 100 ==> q.target == qualityPng)
      && (qualityPng < 10 ==> q.target == 10)
      && (qualityPng > 100 ==> q.target == 100)
      && 0 <= q.MinQuality() <= q.target
      && (q.MinQuality() == 0 <==> q.target <= 40)
      && 1 <= q.speed <= 10
      && (q.target >= 80 ==> q.minOffset == 25 && q.speed == 8 && q.dither == DitherLight)
      && (60 <= q.target < 80 ==> q.minOffset == 30 && q.speed == 9 && q.dither == DitherMedium)
      && (q.target < 60 ==> q.minOffset == 40 && q.speed == 10 && q.dither == DitherFull)
  {
  }

  /**
   * A higher PNG quality never raises the speed, the offset or the dithering,
   * and never lowers the target or the minimum quality.
   */
  lemma QuantizerMonotone(q1: U8, q2: U8)
    requires q1 <= q2
    ensures var a := QuantSettingsFor(q1); var b := QuantSettingsFor(q2);
      && a.target <= b.target
      && b.speed <= a.speed
      && b.minOffset <= a.minOffset
      && b.dither.Tenths() <= a.dither.Tenths()
      && a.MinQuality() <= b.MinQuality()
  {
  }

  // ---------------------------------------------------------------- JPEG lossy

  const JpegMinQuality: U8 := 60
  const JpegMaxQuality: U8 := 95

  /** `quality_jpg.clamp(60, 95)`. */
  function JpegBaseQuality(qualityJpg: U8): U8 {
    ClampU8(qualityJpg, JpegMinQuality, JpegMaxQuality)
  }

  /** The candidate vector before `retain`, `sort_unstable` and `dedup`. */
  function RawCandidates(base: U8): seq<int> {
    [SaturatingAddU8(base, 10), SaturatingAddU8(base, 5), base,
     SaturatingSubU8(base, 5), SaturatingSubU8(base, 10)]
  }

  /** `Vec::retain` with the predicate `lo <= q <= hi`. */
  function Retain(s: seq<int>, lo: int, hi: int): (r: seq<int>)
    ensures forall x :: x in r <==> x in s && lo <= x <= hi
    ensures forall x :: multiset(r)[x] == if lo <= x <= hi then multiset(s)[x] else 0
  {
    if |s| == 0 then []
    else
      assert s == [s[0]] + s[1..];
      (if lo <= s[0] <= hi then [s[0]] else []) + Retain(s[1..], lo, hi)
  }

  /** `retain` keeps the order: retaining from a concatenation concatenates what each part retains. */
  lemma {:induction false} RetainAppend(a: seq<int>, b: seq<int>, lo: int, hi: int)
    ensures Retain(a + b, lo, hi) == Retain(a, lo, hi) + Retain(b, lo, hi)
  {
    if |a| == 0 {
      assert a + b == b;
    } else {
      assert (a + b)[0] == a[0];
      assert (a + b)[1..] == a[1..] + b;
      RetainAppend(a[1..], b, lo, hi);
    }
  }

  predicate Sorted(s: seq<int>) {
    forall i, j :: 0 <= i <= j < |s| ==> s[i] <= s[j]
  }

  predicate StrictlyIncreasing(s: seq<int>) {
    forall i, j :: 0 <= i < j < |s| ==> s[i] < s[j]
  }

  function Insert(x: int, s: seq<int>): (r: seq<int>)
    requires Sorted(s)
    ensures Sorted(r)
    ensures multiset(r) == multiset(s) + multiset{x}
    ensures |r| > 0 && (r[0] == x || (|s| > 0 && r[0] == s[0]))
  {
    if |s| == 0 then [x]
    else if x <= s[0] then [x] + s
    else
      assert s == [s[0]] + s[1..];
      var t := Insert(x, s[1..]);
      assert s[0] <= t[0];
      [s[0]] + t
  }

  /** `sort_unstable` on integers: the sorted permutation is unique, so stability does not matter. */
  function Sort(s: seq<int>): (r: seq<int>)
    ensures Sorted(r)
    ensures multiset(r) == multiset(s)
  {
    if |s| == 0 then []
    else
      assert s == [s[0]] + s[1..];
      Insert(s[0], Sort(s[1..]))
  }

  /** `Vec::dedup`: each run of equal neighbours is collapsed to one element. */
  function Dedup(s: seq<int>): (r: seq<int>)
    ensures forall x :: x in r <==> x in s
    ensures |s| > 0 ==> |r| > 0 && r[0] == s[0]
    ensures Sorted(s) ==> StrictlyIncreasing(r)
  {
    if |s| <= 1 then s
    else
      assert s == [s[0]] + s[1..];
      var t := Dedup(s[1..]);
      if s[0] == s[1] then t
      else
        assert forall k :: 0 <= k < |t| ==> t[k] in t;
        [s[0]] + t
  }

  /** The qualities the JPEG search tries, after the base encoding. */
  function JpegCandidates(qualityJpg: U8): seq<int> {
    Dedup(Sort(Retain(RawCandidates(JpegBaseQuality(qualityJpg)), JpegMinQuality, JpegMaxQuality)))
  }

  /** `x` is `base + 5k` for some k in -2..2. */
  predicate OnGrid(x: int, base: int) {
    base - 10 <= x <= base + 10 && (x - base) % 5 == 0
  }

  /** Strictly increasing values on a grid of step five are at least five apart. */
  lemma {:induction false} GridSpacing(s: seq<int>, base: int, i: nat)
    requires StrictlyIncreasing(s)
    requires forall k :: 0 <= k < |s| ==> (s[k] - base) % 5 == 0
    requires i < |s|
    ensures s[i] >= s[0] + 5 * i
  {
    if i > 0 {
      GridSpacing(s, base, i - 1);
      assert s[i - 1] < s[i];
      assert (s[i] - s[i - 1]) % 5 == 0;
    }
  }

  /** A sequence holding three distinct values has at least three elements. */
  lemma ThreeDistinct(s: seq<int>, x: int, y: int, z: int)
    requires x in s && y in s && z in s
    requires x != y && y != z && x != z
    ensures |s| >= 3
  {
    var i :| 0 <= i < |s| && s[i] == x;
    var j :| 0 <= j < |s| && s[j] == y;
    var k :| 0 <= k < |s| && s[k] == z;
    assert i != j && j != k && i != k;
  }

  /** Sorting keeps exactly the values it was given. */
  lemma SortKeepsMembers(s: seq<int>)
    ensures forall x :: x in Sort(s) <==> x in s
  {
    var r := Sort(s);
    forall x
      ensures x in r <==> x in s
    {
      assert x in r <==> x in multiset(r);
      assert x in s <==> x in multiset(s);
    }
  }

  /** The five raw candidates are the grid points around the base (no saturation in [60, 95]). */
  lemma RawCandidatesAreGrid(b: U8)
    requires 60 <= b <= 95
    ensures RawCandidates(b) == [b + 10, b + 5, b, b - 5, b - 10]
    ensures forall x :: x in RawCandidates(b) <==> OnGrid(x, b)
  {
    forall x
      ensures x in RawCandidates(b) <==> OnGrid(x, b)
    {
      if OnGrid(x, b) {
        var d := x - b;
        assert -10 <= d <= 10 && d % 5 == 0;
        assert d == -10 || d == -5 || d == 0 || d == 5 || d == 10;
      }
    }
  }

  /** Which values survive `retain`, `sort_unstable` and `dedup`. */
  lemma CandidateMembers(qualityJpg: U8)
    ensures StrictlyIncreasing(JpegCandidates(qualityJpg))
    ensures forall x :: x in JpegCandidates(qualityJpg) <==>
              60 <= x <= 95 && OnGrid(x, JpegBaseQuality(qualityJpg))
  {
    var b := JpegBaseQuality(qualityJpg);
    var kept := Retain(RawCandidates(b), JpegMinQuality, JpegMaxQuality);
    SortKeepsMembers(kept);
    RawCandidatesAreGrid(b);
  }

  /** A strictly ascending list holding exactly the in-range grid points has 3 to 5 elements. */
  lemma CandidateCount(c: seq<int>, b: int)
    requires 60 <= b <= 95
    requires StrictlyIncreasing(c)
    requires forall x :: x in c <==> 60 <= x <= 95 && OnGrid(x, b)
    ensures 3 <= |c| <= 5
  {
    assert forall k :: 0 <= k < |c| ==> c[k] in c;
    assert forall k :: 0 <= k < |c| ==> (c[k] - b) % 5 == 0;
    if b <= 85 {
      assert OnGrid(b, b) && OnGrid(b + 5, b) && OnGrid(b + 10, b);
      ThreeDistinct(c, b, b + 5, b + 10);
    } else {
      assert OnGrid(b, b) && OnGrid(b - 5, b) && OnGrid(b - 10, b);
      ThreeDistinct(c, b, b - 5, b - 10);
    }
    GridSpacing(c, b, |c| - 1);
    assert c[0] in c && c[|c| - 1] in c;
  }

  /**
   * The JPEG candidate list: `base_q = clamp(quality_jpg, 60, 95)`, the
   * saturating additions and subtractions never saturate, and the list is
   * strictly ascending, within [60, 95], contains `base_q`, holds exactly the
   * values `base_q + 5k` (k in -2..2) that lie in [60, 95], and has 3 to 5
   * elements.
   */
  lemma JpegCandidatesShape(qualityJpg: U8)
    ensures 60 <= JpegBaseQuality(qualityJpg) <= 95
    ensures 60 <= qualityJpg <= 95 ==> JpegBaseQuality(qualityJpg) == qualityJpg
    ensures RawCandidates(JpegBaseQuality(qualityJpg)) ==
              var b := JpegBaseQuality(qualityJpg); [b + 10, b + 5, b, b - 5, b - 10]
    ensures StrictlyIncreasing(JpegCandidates(qualityJpg))
    ensures forall x :: x in JpegCandidates(qualityJpg) ==> 60 <= x <= 95
    ensures JpegBaseQuality(qualityJpg) in JpegCandidates(qualityJpg)
    ensures forall x :: x in JpegCandidates(qualityJpg) <==>
              60 <= x <= 95 && OnGrid(x, JpegBaseQuality(qualityJpg))
    ensures 3 <= |JpegCandidates(qualityJpg)| <= 5
  {
    var b := JpegBaseQuality(qualityJpg);
    CandidateMembers(qualityJpg);
    assert OnGrid(b, b);
    CandidateCount(JpegCandidates(qualityJpg), b);
  }

  // ---------------------------------------------------------------- encoder plan

  /** The encoder each (format, lossless) pair runs, with its parameters. */
  datatype EncodePlan =
    | PngOptimize(preset: int)                                   // save as PNG, then oxipng
    | PngQuantize(quant: QuantSettings, preset: int, stripAll: bool) // quantise, then oxipng
    | JpegFixed(quality: int)                                    // one JPEG encoding
    | JpegSearch(base: int, candidates: seq<int>)                // best-of JPEG encodings
    | WebPSave                                                   // the codec's lossless WebP
    | WebPEncode(quality: int)                                   // lossy WebP at a quality

  function PlanFor(format: ImageFormat, s: Settings): EncodePlan {
    match format
    case Png =>
      if s.lossless then PngOptimize(1)
      else PngQuantize(QuantSettingsFor(s.qualityPng), 2, true)
    case Jpeg =>
      if s.lossless then JpegFixed(100)
      else JpegSearch(JpegBaseQuality(s.qualityJpg), JpegCandidates(s.qualityJpg))
    case WebP =>
      if s.lossless then WebPSave else WebPEncode(s.qualityWebp)
  }

  /** The format a plan encodes to. */
  function PlanFormat(p: EncodePlan): ImageFormat {
    match p
    case PngOptimize(_) => Png
    case PngQuantize(_, _, _) => Png
    case JpegFixed(_) => Jpeg
    case JpegSearch(_, _) => Jpeg
    case WebPSave => WebP
    case WebPEncode(_) => WebP
  }

  /**
   * The plan keeps the format; lossless PNG is oxipng preset 1 and lossy PNG
   * is quantisation then preset 2 stripping all chunks; lossless JPEG is a
   * single encoding at quality 100 and lossy JPEG searches qualities in
   * [60, 95] only; lossy WebP uses `quality_webp` unclamped.
   */
  lemma PlanProperties(format: ImageFormat, s: Settings)
    ensures PlanFormat(PlanFor(format, s)) == format
    ensures format == Png && s.lossless ==> PlanFor(format, s) == PngOptimize(1)
    ensures format == Png && !s.lossless ==>
              PlanFor(format, s).PngQuantize? && PlanFor(format, s).preset == 2 && PlanFor(format, s).stripAll
    ensures format == Jpeg && s.lossless ==> PlanFor(format, s) == JpegFixed(100)
    ensures format == Jpeg && !s.lossless ==>
              && PlanFor(format, s).JpegSearch?
              && 60 <= PlanFor(format, s).base <= 95
              && PlanFor(format, s).base in PlanFor(format, s).candidates
              && forall q :: q in PlanFor(format, s).candidates ==> 60 <= q <= 95
    ensures format == WebP ==> PlanFor(format, s) == (if s.lossless then WebPSave else WebPEncode(s.qualityWebp))
  {
    JpegCandidatesShape(s.qualityJpg);
  }
}

=== FILE: sanitize.dfy ===
/**
 * The upload file-name sanitiser (`sanitize_filename`, src-tauri/src/main.rs).
 *
 * The name goes through four string replacements, in this order: every ".."
 * is removed, '/' and '\' become '_', and NUL is removed. Then every character
 * that is neither alphanumeric nor one of '.', '_', '-' becomes '_'.
 */
module Sanitize {

  predicate IsAsciiAlphanumeric(c: char) {
    ('a' <= c <= 'z') || ('A' <= c <= 'Z') || ('0' <= c <= '9')
  }

  /**
   * Rust's `char::is_alphanumeric` (Unicode Alphabetic or Numeric). On ASCII it
   * is exactly the letters and digits; beyond ASCII the model leaves it open, so
   * every statement below holds for whatever the Unicode tables say.
   */
  type AlnumClass = f: char -> bool | forall c: char :: c as int < 128 ==> (f(c) <==> IsAsciiAlphanumeric(c))
    witness IsAsciiAlphanumeric

  /** The characters the second pass keeps. */
  predicate Allowed(c: char, alnum: AlnumClass) {
    alnum(c) || c == '.' || c == '_' || c == '-'
  }

  predicate AllAllowed(s: string, alnum: AlnumClass) {
    forall i :: 0 <= i < |s| ==> Allowed(s[i], alnum)
  }

  /** `s` contains the parent-directory reference "..". */
  predicate HasParentRef(s: string) {
    exists i :: 0 <= i < |s| - 1 && s[i] == '.' && s[i + 1] == '.'
  }

  /** `str::replace("..", "")`: non-overlapping matches, found left to right, are dropped. */
  function RemoveParentRefs(s: string): (r: string)
    ensures |r| <= |s|
    ensures forall i :: 0 <= i < |r| ==> r[i] in s
  {
    if |s| < 2 then s
    else if s[0] == '.' && s[1] == '.' then RemoveParentRefs(s[2..])
    else [s[0]] + RemoveParentRefs(s[1..])
  }

  /** `str::replace` of one character by another. */
  function ReplaceChar(s: string, from: char, to: char): (r: string)
    ensures |r| == |s|
    ensures forall i :: 0 <= i < |s| ==> r[i] == (if s[i] == from then to else s[i])
  {
    seq(|s|, i requires 0 <= i < |s| => if s[i] == from then to else s[i])
  }

  /** `str::replace(c, "")`. */
  function RemoveChar(s: string, c: char): (r: string)
    ensures c !in r
    ensures |r| <= |s|
    ensures forall i :: 0 <= i < |r| ==> r[i] in s
    ensures c !in s ==> r == s
  {
    if |s| == 0 then []
    else if s[0] == c then RemoveChar(s[1..], c)
    else
      assert s == [s[0]] + s[1..];
      [s[0]] + RemoveChar(s[1..], c)
  }

  /** The character-class pass: disallowed characters become '_'. */
  function KeepAllowed(s: string, alnum: AlnumClass): (r: string)
    ensures |r| == |s|
    ensures forall i :: 0 <= i < |s| ==> r[i] == (if Allowed(s[i], alnum) then s[i] else '_')
  {
    seq(|s|, i requires 0 <= i < |s| => if Allowed(s[i], alnum) then s[i] else '_')
  }

  /** `sanitize_filename`, as written. */
  function SanitizeFilename(name: string, alnum: AlnumClass): (r: string)
    ensures AllAllowed(r, alnum)
    ensures '/' !in r && '\\' !in r && '\0' !in r
    ensures |r| <= |name|
  {
    var noParent := RemoveParentRefs(name);
    var noSlash := ReplaceChar(noParent, '/', '_');
    var noBackslash := ReplaceChar(noSlash, '\\', '_');
    var noNul := RemoveChar(noBackslash, '\0');
    var r := KeepAllowed(noNul, alnum);
    assert !Allowed('/', alnum) && !Allowed('\\', alnum) && !Allowed('\0', alnum);
    r
  }

  /** Two strings with dots at the same positions agree on containing "..". */
  lemma SameDotsSameParentRefs(x: string, y: string)
    requires |x| == |y|
    requires forall i :: 0 <= i < |x| ==> (x[i] == '.' <==> y[i] == '.')
    ensures HasParentRef(x) <==> HasParentRef(y)
  {
    if HasParentRef(x) {
      var i :| 0 <= i < |x| - 1 && x[i] == '.' && x[i + 1] == '.';
      assert y[i] == '.' && y[i + 1] == '.';
    }
    if HasParentRef(y) {
      var i :| 0 <= i < |y| - 1 && y[i] == '.' && y[i + 1] == '.';
      assert x[i] == '.' && x[i + 1] == '.';
    }
  }

  /** Without a ".." there is nothing for the first pass to remove. */
  lemma {:induction false} RemoveParentRefsKeepsClean(s: string)
    requires !HasParentRef(s)
    ensures RemoveParentRefs(s) == s
  {
    if |s| >= 2 {
      assert !(s[0] == '.' && s[1] == '.');
      var t := s[1..];
      forall i | 0 <= i < |t| - 1
        ensures !(t[i] == '.' && t[i + 1] == '.')
      {
        assert t[i] == s[i + 1] && t[i + 1] == s[i + 2];
      }
      RemoveParentRefsKeepsClean(t);
      assert s == [s[0]] + t;
    }
  }

  /** A first character that is not a dot survives the first pass. */
  lemma RemoveParentRefsHead(s: string)
    requires |s| > 0 && s[0] != '.'
    ensures |RemoveParentRefs(s)| > 0 && RemoveParentRefs(s)[0] == s[0]
  {
  }

  /**
   * The ".." pass on its own leaves no "..": a run of dots keeps its parity,
   * so at most one dot of it is left, and the other characters stay.
   */
  lemma {:induction false} RemoveParentRefsLeavesNone(s: string)
    ensures !HasParentRef(RemoveParentRefs(s))
  {
    if |s| < 2 {
    } else if s[0] == '.' && s[1] == '.' {
      RemoveParentRefsLeavesNone(s[2..]);
    } else {
      var t := RemoveParentRefs(s[1..]);
      RemoveParentRefsLeavesNone(s[1..]);
      var r := [s[0]] + t;
      assert RemoveParentRefs(s) == r;
      forall i | 0 <= i < |r| - 1
        ensures !(r[i] == '.' && r[i + 1] == '.')
      {
        if i == 0 {
          if s[0] == '.' {
            RemoveParentRefsHead(s[1..]);
          }
        } else {
          assert r[i] == t[i - 1] && r[i + 1] == t[i];
        }
      }
    }
  }

  /**
   * A name made only of allowed characters and holding no ".." is returned
   * unchanged.
   */
  lemma SanitizeKeepsCleanName(name: string, alnum: AlnumClass)
    requires AllAllowed(name, alnum)
    requires !HasParentRef(name)
    ensures SanitizeFilename(name, alnum) == name
  {
    RemoveParentRefsKeepsClean(name);
    assert !Allowed('/', alnum) && !Allowed('\\', alnum) && !Allowed('\0', alnum);
    assert forall i :: 0 <= i < |name| ==> name[i] != '/' && name[i] != '\\' && name[i] != '\0';
    var noSlash := ReplaceChar(name, '/', '_');
    assert noSlash == name;
    var noBackslash := ReplaceChar(noSlash, '\\', '_');
    assert noBackslash == name;
    assert '\0' !in name;
    assert RemoveChar(noBackslash, '\0') == name;
  }

  /**
   * When the name holds no NUL, the output holds no "..": NUL is the only
   * character removed after the ".." pass.
   */
  lemma SanitizeNoParentRefWithoutNul(name: string, alnum: AlnumClass)
    requires '\0' !in name
    ensures !HasParentRef(SanitizeFilename(name, alnum))
  {
    var noParent := RemoveParentRefs(name);
    RemoveParentRefsLeavesNone(name);
    var noSlash := ReplaceChar(noParent, '/', '_');
    var noBackslash := ReplaceChar(noSlash, '\\', '_');
    assert '\0' !in noParent;
    assert '\0' !in noBackslash;
    assert RemoveChar(noBackslash, '\0') == noBackslash;
    var r := KeepAllowed(noBackslash, alnum);
    assert r == SanitizeFilename(name, alnum);
    SameDotsSameParentRefs(noParent, r);
  }

  /** On names without NUL, sanitising twice is sanitising once. */
  lemma SanitizeIdempotentWithoutNul(name: string, alnum: AlnumClass)
    requires '\0' !in name
    ensures SanitizeFilename(SanitizeFilename(name, alnum), alnum) == SanitizeFilename(name, alnum)
  {
    SanitizeNoParentRefWithoutNul(name, alnum);
    SanitizeKeepsCleanName(SanitizeFilename(name, alnum), alnum);
  }

  /**
   * The comment on `sanitize_filename` promises that parent references are
   * removed, but a NUL between two dots hides them from the ".." pass: ".\0."
   * comes out as "..", and sanitising that again gives "".
   */
  lemma NulHidesParentRef(alnum: AlnumClass)
    ensures SanitizeFilename(".\0.", alnum) == ".."
    ensures HasParentRef(SanitizeFilename(".\0.", alnum))
    ensures SanitizeFilename(SanitizeFilename(".\0.", alnum), alnum) == ""
  {
    var s := ".\0.";
    assert s[1..] == "\0." && s[1..][1..] == ".";
    assert RemoveParentRefs("\0.") == "\0.";
    assert RemoveParentRefs(s) == s;
    assert ReplaceChar(s, '/', '_') == s;
    assert ReplaceChar(s, '\\', '_') == s;
    assert s[1..][1..] == ".";
    assert RemoveChar(".", '\0') == ".";
    assert RemoveChar("\0.", '\0') == ".";
    assert RemoveChar(s, '\0') == "..";
    assert KeepAllowed("..", alnum) == "..";
    var t := "..";
    assert RemoveParentRefs(t) == "";
    assert SanitizeFilename(t, alnum) == "";
  }

  /**
   * The sanitiser with NUL removed before the ".." pass, which is what the
   * comment on `sanitize_filename` describes.
   */
  function SanitizeFilenameStrict(name: string, alnum: AlnumClass): (r: string)
    ensures AllAllowed(r, alnum)
    ensures '/' !in r && '\\' !in r && '\0' !in r
    ensures !HasParentRef(r)
    ensures |r| <= |name|
  {
    var noNul := RemoveChar(name, '\0');
    var noParent := RemoveParentRefs(noNul);
    var noSlash := ReplaceChar(noParent, '/', '_');
    var noBackslash := ReplaceChar(noSlash, '\\', '_');
    var r := KeepAllowed(noBackslash, alnum);
    assert !Allowed('/', alnum) && !Allowed('\\', alnum) && !Allowed('\0', alnum);
    RemoveParentRefsLeavesNone(noNul);
    SameDotsSameParentRefs(noParent, r);
    r
  }

  /** The corrected sanitiser and the one as written agree on every name without NUL. */
  lemma StrictAgreesWithoutNul(name: string, alnum: AlnumClass)
    requires '\0' !in name
    ensures SanitizeFilenameStrict(name, alnum) == SanitizeFilename(name, alnum)
  {
    var noParent := RemoveParentRefs(name);
    var noBackslash := ReplaceChar(ReplaceChar(noParent, '/', '_'), '\\', '_');
    assert '\0' !in noParent;
    assert '\0' !in noBackslash;
    assert RemoveChar(noBackslash, '\0') == noBackslash;
  }
}

=== FILE: upload.dfy ===
/**
 * `compress_uploaded_files`: the per-item checks and the batch loop over
 * items uploaded from the front end.
 */
module Upload {
  import opened Wrappers
  import opened Paths
  import opened Sanitize
  import opened Format
  import opened Policy
  import opened Destination
  import opened Compress

  /** Rust's `u32`. */
  type U32 = x: int | 0 <= x < 0x1_0000_0000

  /** One uploaded item (`FileData`); `data` is the base64 text. */
  datatype FileData = FileData(name: string, data: string, format: string, sourceIndex: U32, sourcePath: Option<Path>)

  datatype UploadStatus =
    | Success
    | UnsupportedFormat
    | DecodeFailed
    | FileTooLarge
    | SaveFailed
    | MissingSourcePath
    | CompressFailed
  {
    /** The status string of the result tuple. */
    function Text(): string {
      match this
      case Success => "success"
      case UnsupportedFormat => "unsupported_format"
      case DecodeFailed => "decode_failed"
      case FileTooLarge => "file_too_large"
      case SaveFailed => "save_failed"
      case MissingSourcePath => "missing_source_path"
      case CompressFailed => "compress_failed"
    }
  }

  /** One `(name, original_size, compressed_size, status, source_index)` tuple. */
  datatype UploadRow = UploadRow(name: string, originalSize: nat, compressedSize: nat, status: UploadStatus, sourceIndex: U32)

  /** How the effectful steps of one item turn out. */
  datatype UploadIo = UploadIo(
    tempWriteOk: bool,      // fs::write of the decoded bytes to the temporary copy
    compress: CompressIo)   // the steps of compress_image

  /** The item's row, and the target `compress_image` was called with, if it was. */
  datatype ItemOutcome = ItemOutcome(row: UploadRow, invoked: Option<Target>)

  /** The size limit: 50 MiB. */
  const MaxUploadBytes: nat := 50 * 1024 * 1024

  /**
   * Sanitised names for which `temp_dir.join(name)` is the temporary directory
   * itself or its parent. Both exist as directories, so writing the upload
   * there fails.
   */
  predicate NamesDirectory(name: string) {
    name == "" || name == "." || name == ".."
  }

  function Rejected(f: FileData, status: UploadStatus): ItemOutcome {
    ItemOutcome(UploadRow(f.name, 0, 0, status, f.sourceIndex), None)
  }

  /**
   * One pass of the loop: tag check, base64 decode (`decode`), size limit,
   * temporary copy, destination, compression, in that order; the first failing
   * step decides the status.
   */
  function ProcessItem(f: FileData, s: Settings, outputDir: Option<Path>, tempDir: Path,
                       decode: string -> Option<Blob>, alnum: AlnumClass, io: UploadIo): (o: ItemOutcome)
    ensures o.row.name == f.name && o.row.sourceIndex == f.sourceIndex
    ensures o.row.status != Success ==> o.row.originalSize == 0 && o.row.compressedSize == 0
    ensures o.invoked.Some? <==> o.row.status == Success || o.row.status == CompressFailed
    ensures o.row.status == UnsupportedFormat <==> !IsSupportedTag(f.format)
    ensures IsSupportedTag(f.format) && decode(f.data).None? ==> o == Rejected(f, DecodeFailed)
    ensures IsSupportedTag(f.format) && decode(f.data).Some? && |decode(f.data).value| <= MaxUploadBytes
            && (!io.tempWriteOk || NamesDirectory(SanitizeFilename(f.name, alnum))) ==>
              o == Rejected(f, SaveFailed)
    ensures o.row.status == Success ==>
              var c := CompressImage(o.invoked.value.source, s, o.invoked.value.output, io.compress);
              c.Ok? && o.row.originalSize == c.value.originalSize && o.row.compressedSize == c.value.compressedSize
  {
    var sanitized := SanitizeFilename(f.name, alnum);
    if !IsSupportedTag(f.format) then Rejected(f, UnsupportedFormat)
    else match decode(f.data)
      case None => Rejected(f, DecodeFailed)
      case Some(bytes) =>
        if |bytes| > MaxUploadBytes then Rejected(f, FileTooLarge)
        else if !io.tempWriteOk || NamesDirectory(sanitized) then Rejected(f, SaveFailed)
        else match ResolveTarget(outputDir, f.sourcePath, Join(tempDir, sanitized), sanitized)
          case None => Rejected(f, MissingSourcePath)
          case Some(t) =>
            match CompressImage(t.source, s, t.output, io.compress)
            case Ok(c) => ItemOutcome(UploadRow(f.name, c.originalSize, c.compressedSize, Success, f.sourceIndex), Some(t))
            case Err(_) => ItemOutcome(UploadRow(f.name, 0, 0, CompressFailed, f.sourceIndex), Some(t))
  }

  /** The loop over all items: one outcome per item, in input order. */
  function ProcessAll(files: seq<FileData>, s: Settings, outputDir: Option<Path>, tempDir: Path,
                      decode: string -> Option<Blob>, alnum: AlnumClass, ios: seq<UploadIo>): (rows: seq<UploadRow>)
    requires |ios| == |files|
    ensures |rows| == |files|
    ensures forall i :: 0 <= i < |files| ==> rows[i] == ProcessItem(files[i], s, outputDir, tempDir, decode, alnum, ios[i]).row
    decreases |files|
  {
    if |files| == 0 then []
    else [ProcessItem(files[0], s, outputDir, tempDir, decode, alnum, ios[0]).row]
         + ProcessAll(files[1..], s, outputDir, tempDir, decode, alnum, ios[1..])
  }

  /**
   * `compress_uploaded_files`: fails as a whole only when its temporary
   * directory cannot be created (`tempDir` carries that outcome); otherwise
   * returns the rows of the loop.
   */
  function CompressUploadedFiles(files: seq<FileData>, s: Settings, outputDir: Option<Path>,
                                 tempDir: Result<Path, string>, decode: string -> Option<Blob>,
                                 alnum: AlnumClass, ios: seq<UploadIo>): (r: Result<seq<UploadRow>, string>)
    requires |ios| == |files|
    ensures r.Err? <==> tempDir.Err?
    ensures r.Err? ==> r.error == "Failed to create temp dir: " + tempDir.error
    ensures r.Ok? ==> |r.value| == |files|
    ensures r.Ok? ==> r.value == ProcessAll(files, s, outputDir, tempDir.value, decode, alnum, ios)
  {
    match tempDir
    case Err(msg) => Err("Failed to create temp dir: " + msg)
    case Ok(dir) => Ok(ProcessAll(files, s, outputDir, dir, decode, alnum, ios))
  }

  /**
   * The batch result: exactly one row per item, in input order, echoing the
   * original (unsanitised) name and the source index; every row that is not
   * a success carries sizes (0, 0).
   */
  lemma BatchRowsFollowItems(files: seq<FileData>, s: Settings, outputDir: Option<Path>, tempDir: Path,
                             decode: string -> Option<Blob>, alnum: AlnumClass, ios: seq<UploadIo>)
    requires |ios| == |files|
    ensures var rows := CompressUploadedFiles(files, s, outputDir, Ok(tempDir), decode, alnum, ios);
      && rows.Ok?
      && |rows.value| == |files|
      && (forall i :: 0 <= i < |files| ==>
            rows.value[i].name == files[i].name && rows.value[i].sourceIndex == files[i].sourceIndex)
      && (forall i :: 0 <= i < |files| && rows.value[i].status != Success ==>
            rows.value[i].originalSize == 0 && rows.value[i].compressedSize == 0)
  {
  }

  /**
   * A tag outside png/jpg/jpeg/webp (up to ASCII case) gives
   * `unsupported_format` with sizes (0, 0) before anything else: the outcome
   * is the same whatever the decoder and the I/O would have done.
   */
  lemma UnsupportedTagShortCircuits(f: FileData, s: Settings, outputDir: Option<Path>, tempDir: Path,
                                    decode1: string -> Option<Blob>, decode2: string -> Option<Blob>,
                                    alnum: AlnumClass, io1: UploadIo, io2: UploadIo)
    requires !IsSupportedTag(f.format)
    ensures ProcessItem(f, s, outputDir, tempDir, decode1, alnum, io1) == ProcessItem(f, s, outputDir, tempDir, decode2, alnum, io2)
    ensures ProcessItem(f, s, outputDir, tempDir, decode1, alnum, io1) == Rejected(f, UnsupportedFormat)
  {
  }

  /** A decoded payload of exactly 50 MiB is accepted; one byte more is `file_too_large`. */
  lemma SizeLimitBoundary(f: FileData, s: Settings, outputDir: Option<Path>, tempDir: Path,
                          decode: string -> Option<Blob>, alnum: AlnumClass, io: UploadIo)
    requires IsSupportedTag(f.format) && decode(f.data).Some?
    ensures |decode(f.data).value| <= MaxUploadBytes ==>
              ProcessItem(f, s, outputDir, tempDir, decode, alnum, io).row.status != FileTooLarge
    ensures |decode(f.data).value| > MaxUploadBytes <==>
              ProcessItem(f, s, outputDir, tempDir, decode, alnum, io).row.status == FileTooLarge
  {
  }

  /**
   * With neither an output directory nor a source path the item is
   * `missing_source_path` and `compress_image` is not called.
   */
  lemma MissingDestinationNotCompressed(f: FileData, s: Settings, tempDir: Path,
                                        decode: string -> Option<Blob>, alnum: AlnumClass, io: UploadIo)
    requires IsSupportedTag(f.format) && decode(f.data).Some? && |decode(f.data).value| <= MaxUploadBytes
    requires io.tempWriteOk && f.sourcePath.None?
    ensures ProcessItem(f, s, None, tempDir, decode, alnum, io).invoked.None?
    ensures !NamesDirectory(SanitizeFilename(f.name, alnum)) ==>
              ProcessItem(f, s, None, tempDir, decode, alnum, io) == Rejected(f, MissingSourcePath)
  {
  }

  /**
   * The status is `success` exactly when every step succeeds, and then the
   * sizes are those `compress_image` reported.
   */
  lemma SuccessIffAllSteps(f: FileData, s: Settings, outputDir: Option<Path>, tempDir: Path,
                           decode: string -> Option<Blob>, alnum: AlnumClass, io: UploadIo)
    ensures var sanitized := SanitizeFilename(f.name, alnum);
      var o := ProcessItem(f, s, outputDir, tempDir, decode, alnum, io);
      o.row.status == Success <==>
        && IsSupportedTag(f.format)
        && decode(f.data).Some?
        && |decode(f.data).value| <= MaxUploadBytes
        && io.tempWriteOk
        && !NamesDirectory(sanitized)
        && (outputDir.Some? || f.sourcePath.Some?)
        && var t := ResolveTarget(outputDir, f.sourcePath, Join(tempDir, sanitized), sanitized).value;
           CompressImage(t.source, s, t.output, io.compress).Ok?
    ensures var o := ProcessItem(f, s, outputDir, tempDir, decode, alnum, io);
      o.row.status == Success ==>
        var c := CompressImage(o.invoked.value.source, s, o.invoked.value.output, io.compress).value;
        o.row.originalSize == c.originalSize && o.row.compressedSize == c.compressedSize
  {
  }

  /**
   * Once the early checks pass and a target exists, the status is decided by
   * `compress_image` alone: `success` or `compress_failed`.
   */
  lemma CompressDecides(f: FileData, s: Settings, outputDir: Option<Path>, tempDir: Path,
                        decode: string -> Option<Blob>, alnum: AlnumClass, io: UploadIo)
    requires IsSupportedTag(f.format) && decode(f.data).Some? && |decode(f.data).value| <= MaxUploadBytes
    requires io.tempWriteOk && (outputDir.Some? || f.sourcePath.Some?)
    ensures var sanitized := SanitizeFilename(f.name, alnum);
      var t := ResolveTarget(outputDir, f.sourcePath, Join(tempDir, sanitized), sanitized).value;
      ProcessItem(f, s, outputDir, tempDir, decode, alnum, io).row.status
      == (if NamesDirectory(sanitized) then SaveFailed
          else if CompressImage(t.source, s, t.output, io.compress).Ok? then Success
          else CompressFailed)
  {
  }

  /**
   * Where a compressed upload goes: `compress_image` reads the source path, or
   * the temporary copy when there is none, and writes the output directory
   * joined with the sanitised name, or else the source path in place.
   */
  lemma UploadDestination(f: FileData, s: Settings, outputDir: Option<Path>, tempDir: Path,
                          decode: string -> Option<Blob>, alnum: AlnumClass, io: UploadIo)
    requires IsSupportedTag(f.format) && decode(f.data).Some? && |decode(f.data).value| <= MaxUploadBytes
    requires io.tempWriteOk && (outputDir.Some? || f.sourcePath.Some?)
    ensures ProcessItem(f, s, outputDir, tempDir, decode, alnum, io).invoked.Some?
            <==> !NamesDirectory(SanitizeFilename(f.name, alnum))
    ensures ProcessItem(f, s, outputDir, tempDir, decode, alnum, io).invoked.Some? ==>
      var sanitized := SanitizeFilename(f.name, alnum);
      var t := ProcessItem(f, s, outputDir, tempDir, decode, alnum, io).invoked.value;
      && t.source == f.sourcePath.GetOr(Join(tempDir, sanitized))
      && (outputDir.Some? ==> FinalPath(t.source, t.output) == Join(outputDir.value, sanitized))
      && (outputDir.None? ==> f.sourcePath.Some? && FinalPath(t.source, t.output) == f.sourcePath.value)
    ensures ProcessItem(f, s, outputDir, tempDir, decode, alnum, io).row.status == Success ==>
              var t := ProcessItem(f, s, outputDir, tempDir, decode, alnum, io).invoked.value;
              CompressImage(t.source, s, t.output, io.compress).value.destination == FinalPath(t.source, t.output)
  {
    var sanitized := SanitizeFilename(f.name, alnum);
    DestinationCases(outputDir, f.sourcePath, Join(tempDir, sanitized), sanitized);
  }

  /** A non-empty name without '.' or NUL keeps its length and gains no '.'. */
  lemma DotFreeNameStaysDotFree(name: string, alnum: AlnumClass)
    requires |name| > 0 && '.' !in name && '\0' !in name
    ensures '.' !in SanitizeFilename(name, alnum) && |SanitizeFilename(name, alnum)| == |name|
  {
    assert !HasParentRef(name);
    RemoveParentRefsKeepsClean(name);
    var noBackslash := ReplaceChar(ReplaceChar(name, '/', '_'), '\\', '_');
    assert '\0' !in noBackslash && '.' !in noBackslash;
    assert RemoveChar(noBackslash, '\0') == noBackslash;
  }

  /** A copy whose name has no extension is rejected by `compress_image`. */
  lemma ExtensionlessCopyFails(tempDir: Path, name: string, s: Settings, output: Option<Path>, io: CompressIo)
    requires |name| > 0 && '.' !in name && '/' !in name
    ensures CompressImage(Join(tempDir, name), s, output, io).Err?
  {
    var tempPath := Join(tempDir, name);
    assert name != "." && name != "..";
    assert tempPath == tempDir + [name];
    assert FileExtension(name).None?;
    assert DetectImageFormat(tempPath).Err?;
  }

  /**
   * The tag is not what decides the format: without a source path the temporary
   * copy is read, and its format comes from the name's extension. An item
   * with an accepted tag (say "png") whose name has no extension fails in
   * `compress_image`.
   */
  lemma TagDoesNotDecideFormat(f: FileData, s: Settings, outputDir: Path, tempDir: Path,
                               decode: string -> Option<Blob>, alnum: AlnumClass, io: UploadIo)
    requires IsSupportedTag(f.format) && f.sourcePath.None?
    requires |f.name| > 0 && '.' !in f.name && '\0' !in f.name
    requires decode(f.data).Some? && |decode(f.data).value| <= MaxUploadBytes && io.tempWriteOk
    ensures ProcessItem(f, s, Some(outputDir), tempDir, decode, alnum, io).row.status == CompressFailed
  {
    var sanitized := SanitizeFilename(f.name, alnum);
    DotFreeNameStaysDotFree(f.name, alnum);
    assert !NamesDirectory(sanitized) by {
      assert "."[0] == '.' && ".."[0] == '.';
    }
    var tempPath := Join(tempDir, sanitized);
    var t := ResolveTarget(Some(outputDir), None, tempPath, sanitized).value;
    assert t.source == tempPath;
    ExtensionlessCopyFails(tempDir, sanitized, s, t.output, io.compress);
    CompressDecides(f, s, Some(outputDir), tempDir, decode, alnum, io);
  }

  /**
   * Whatever the uploaded name, a compressed upload written to an output
   * directory lands in a plain file directly inside it: the final path is the
   * directory plus one normal component. The sanitised ".." of a name such as
   * ".\0." never gets that far, because the temporary write fails first.
   */
  lemma UploadStaysInOutputDir(f: FileData, s: Settings, outputDir: Path, tempDir: Path,
                               decode: string -> Option<Blob>, alnum: AlnumClass, io: UploadIo)
    ensures ProcessItem(f, s, Some(outputDir), tempDir, decode, alnum, io).invoked.Some? ==>
      var t := ProcessItem(f, s, Some(outputDir), tempDir, decode, alnum, io).invoked.value;
      exists n :: IsNormal(n) && FinalPath(t.source, t.output) == outputDir + [n]
  {
    if ProcessItem(f, s, Some(outputDir), tempDir, decode, alnum, io).invoked.None? {
      return;
    }
    var sanitized := SanitizeFilename(f.name, alnum);
    var t := ProcessItem(f, s, Some(outputDir), tempDir, decode, alnum, io).invoked.value;
    assert !NamesDirectory(sanitized);
    assert sanitized != RootDir by {
      assert RootDir[0] == '/';
    }
    DestinationCases(Some(outputDir), f.sourcePath, Join(tempDir, sanitized), sanitized);
    assert IsNormal(sanitized) && FinalPath(t.source, t.output) == outputDir + [sanitized];
  }

  /**
   * The name ".\0." sanitises to "..", so its temporary path is the temporary
   * directory's parent; the write fails and the item is `save_failed`, with
   * `compress_image` never called.
   */
  lemma NulNameNotSaved(f: FileData, s: Settings, outputDir: Option<Path>, tempDir: Path,
                        decode: string -> Option<Blob>, alnum: AlnumClass, io: UploadIo)
    requires f.name == ".\0."
    requires IsSupportedTag(f.format) && decode(f.data).Some? && |decode(f.data).value| <= MaxUploadBytes
    ensures ProcessItem(f, s, outputDir, tempDir, decode, alnum, io) == Rejected(f, SaveFailed)
  {
    NulHidesParentRef(alnum);
    assert NamesDirectory(SanitizeFilename(f.name, alnum));
  }
}

=== FILE: wrappers.dfy ===
/** Optional values and fallible results, used for Rust's `Option` and `Result`. */
module Wrappers {

  datatype Option<+T> = None | Some(value: T) {

    /** Rust's `unwrap_or`. */
    function GetOr(default: T): T {
      match this
      case Some(v) => v
      case None => default
    }
  }

  datatype Result<+T, +E> = Ok(value: T) | Err(error: E)
}
